=== FILE: README.md ===
# Outbox and sync engine of Evidente, modelled in Dafny

Evidente is a field-data web app: a worker submits a photo plus GPS and
activity data, and the submission must reach a Google Apps Script backend
even when the device is offline. `queue.js` is the part that makes that
happen. It has three layers, and this project models each one as pure
Dafny over immutable data:

- **The outbox.** An IndexedDB object store `outbox` keyed by
  `submission_uuid`, with an index on `created_at`.
- **The transport.** One form-encoded POST (`postFormXHR`). The two-step
  delivery of one submission (`sendItem`): `upload_foto`, then
  `gravar_linha_lt08`, carrying the same `submission_uuid`.
- **The engine.** `flushOnce` drains the outbox in `created_at` order, one item
  at a time, fail-fast and single-flight. `queueOrSendNow` is the entry point:
  it completes the item (UUID and timestamp), sends it at once when online,
  and queues it otherwise or after a failed send.

Modules, in dependency order:

| file | module | what it holds |
|---|---|---|
| results.dfy | `Results` | `Option`, `Result` |
| js.dfy | `Js` | JavaScript values, truthiness, `\|\|`, `String(v)` for integers |
| keys.dfy | `Keys` | IndexedDB keys and their order (numbers before strings, strings by code point) |
| uri.dfy | `Uri` | `encodeURIComponent` / `decodeURIComponent` over UTF-8 percent escapes |
| form.dfy | `Form` | `encodeForm`, a reference decoder, field lookup |
| outbox.dfy | `Outbox` | the record, the store, `putItem`, `getAll`, `del` |
| transport.dfy | `Transport` | the settled result of `postFormXHR` |
| submission.dfy | `Submission` | `safe`, `normChuva`, `getLS`, `resolveBaseUrl`, the two payloads, `sendItem` |
| drain.dfy | `Sync` | `flushOnce` |
| uuid.dfy | `Uuid` | the `submission_uuid` template generator |
| facade.dfy | `Facade` | `queueOrSendNow` |

The environment is passed in explicitly:

- **The network** is `Wire.net`. It gives the response to the k-th POST, where
  POSTs are numbered from 0 in the order they are made.
- **The clock** has three forms. `Wire.clock` is the `toISOString()` reading
  before the k-th POST. `now` and `putNow` are the `Date.now()` readings.
- **`navigator.onLine` during a pass** is a finite set of check numbers that
  answered true. Check 0 is made on entry, and check `i + 1` before snapshot
  item `i`.
- **`Math.random()`** is a sequence of 31 nibbles, one per placeholder of the
  UUID template.
- **Aborted IndexedDB transactions** are booleans, one per transaction.
- **`localStorage` and `window.WEBAPP_URL`** are the `Host`.

The model is sequential: a drain pass runs without other writers touching the
store in between.

## Behaviour worth knowing

- **Scan order.** `getAll` walks the `created_at` index, so records with equal
  `created_at` come out in primary-key order, which is the order IndexedDB
  gives an index's duplicate keys (queue.js:58-62).
- **Write action name.** The write request's action is `gravar_linha_lt08`
  (queue.js:179).
- **`normChuva`.** It returns `'SIM'` for every truthy value, including the
  strings `'no'`, `'false'` and `' '`, because its final fallback is
  `v ? 'SIM' : ''` (queue.js:134). `Submission.NormChuvaNoIsSim` proves this
  for those three strings.
- **Offline during a pass.** Going offline does not stop a pass. The item is
  skipped (queue.js:218), and a later item whose check sees the browser online
  again is still sent.

## Model

| member | source | states |
|---|---|---|
| Js.Or | queue.js:144 | `a \|\| b` is `a` when `a` is truthy and `b` otherwise, and it is truthy iff either operand is |
| Js.DecimalRoundTrip | queue.js:110 | the decimal digits written for a status code read back to that number |
| Keys.KeyLessTransitive | queue.js:30 | the IndexedDB key order used by the `created_at` index is transitive |
| Keys.KeyLessTotal | queue.js:30 | any two distinct keys are ordered one way or the other |
| Uri.DecodeEncode | queue.js:86 | `decodeURIComponent(encodeURIComponent(s)) == s` for every string |
| Uri.ReadEscapedUtf8 | queue.js:86 | the `%XY` escapes of a character's UTF-8 octets decode to that character and span three characters per octet |
| Uri.EscapeAllRead | queue.js:86 | the k-th octet of an escaped octet string is read back at position 3k |
| Form.SplitJoin | queue.js:88 | splitting the `&`-joined segments at `&` gives the segments back when none contains `&` |
| Form.EncodeForm | queue.js:82-88 | the body is empty exactly when the data object has no fields |
| Form.JoinSplit | queue.js:88 | joining the pieces of a split at the same separator gives the text back |
| Form.EncodeFormSegments | queue.js:82-88 | the body splits at `&` into one `name=value` segment per field, in field order, each with the escaped name and the escaped text |
| Form.DecodeEncodeForm | queue.js:82-88 | decoding the body gives every field's name and text back in order, with `''` for null and undefined; no fields give the empty body |
| Form.LookupDistinct | queue.js:84 | with distinct names, each field is found under its own name |
| Outbox.Put | queue.js:39-50 | an upsert: it succeeds iff the record has a valid key and the transaction does not abort; the key set gains the record's key, other records are unchanged, and the stored record is the given one with `created_at` stamped only when falsy; an invalid key gives DataError, and a valid key with an aborted transaction gives TransactionError |
| Outbox.PutReplaces | queue.js:47 | a second put under the same key overwrites the first completely |
| Outbox.Del | queue.js:70-79 | removes exactly the key and keeps every other record; an abort changes nothing |
| Outbox.DelIdempotent | queue.js:76 | deleting an absent key succeeds without change, so deleting twice equals deleting once |
| Outbox.ScanBeforeStrictTotal | queue.js:58-59 | the cursor order (by `created_at`, ties by primary key) is irreflexive, transitive and total on distinct records |
| Outbox.Insert | queue.js:62 | inserting a record into a cursor-ordered list keeps it ordered and adds exactly that record |
| Outbox.GetAll | queue.js:52-68 | an abort rejects; otherwise the result holds every indexed record of the store once, each under its own key, in cursor order |
| Outbox.ScanUnique | queue.js:52-68 | two scans of the same store are equal, so the scan is fully determined |
| Outbox.ScanExactlyOnce | queue.js:52-68 | each record with a valid `created_at` appears exactly once in a scan, and `created_at` never decreases along it |
| Transport.Classify | queue.js:97-114 | a 2xx response with a JSON body resolves to that body; otherwise the rejection is `HTTP 0`, `HTTP <status>` or `Resposta inválida` |
| Transport.BodyDecodes | queue.js:116 | the body `postFormXHR` sends decodes back to exactly the request's fields, in order |
| Submission.Safe | queue.js:124 | a value that is not null or undefined passes through; a null or undefined value gives `def` when `def` is truthy and `''` otherwise, so the result is never null or undefined |
| Submission.ResolveBaseUrl | queue.js:141-147 | the item's `WEBAPP_URL` if truthy, else the window's if truthy, else the built-in URL; the result is always truthy, so the "not defined" error cannot arise |
| Submission.NormChuva | queue.js:127-135 | the result is `'SIM'` or `''`, and `'SIM'` exactly when the value is truthy |
| Submission.NormChuvaYes | queue.js:128-132 | `true`, `'SIM'`, `'sim'`, `'1'` and `'yes'` give `'SIM'` |
| Submission.NormChuvaFalsy | queue.js:134 | the falsy values give `''` |
| Submission.NormChuvaNoIsSim | queue.js:134 | `'no'`, `'false'` and `' '` give `'SIM'` |
| Submission.LoteNome | queue.js:155 | the item's `lote` if truthy, else the stored `EVIDENTE_LOTE_NOME`, else `''` |
| Submission.LoteCod | queue.js:156 | the item's `lote_cod` if truthy, else the stored `EVIDENTE_LOTE_COD`, else `''` |
| Submission.UploadFieldsSchema | queue.js:159-171 | the upload sends exactly the twelve fields of the source, in its order |
| Submission.UploadFieldsRead | queue.js:159-171 | the upload carries action `upload_foto`, the item's uuid and photo, the resolved lote values, and lat, long and accuracy that are never null or undefined |
| Submission.UploadFieldsCoords | queue.js:168-170 | the upload's `lat`, `long` and `accuracy_m` are the item's values, or `''` where those are null or undefined |
| Submission.WriteFieldsSchema | queue.js:178-199 | the write sends exactly the seventeen fields of the source, in its order |
| Submission.WriteFieldsLookup | queue.js:178-199 | each write field is read back by its name |
| Submission.WriteFieldsIdentity | queue.js:178-198 | the write carries action `gravar_linha_lt08`, the item's uuid, the same lote values as the upload, and the clock reading |
| Submission.WriteFieldsPhoto | queue.js:185-186 | `foto` and `foto_id` come from the upload's reply when truthy and are `''` otherwise |
| Submission.WriteFieldsCoords | queue.js:187-188 | the write's `lat` and `long` are the item's values, or `''` where those are null or undefined |
| Submission.WriteFieldsFlags | queue.js:190-193 | `chuva` is normalised; `fake_gps` and `gps_flag` are truthy iff either flag is, each is one of the two flags or `''`, and they agree when exactly one flag is set |
| Submission.FailureMessage | queue.js:174 | `(up && up.mensagem) \|\| fallback` is the text of a truthy `mensagem`, else the fallback, and is never empty when the fallback is not |
| Submission.SendItem | queue.js:150-206 | one or two POSTs; the write is made iff the upload was confirmed; success iff both were confirmed |
| Submission.SendItemRequests | queue.js:159-199 | the first POST is the upload, the second the write, and both go to the resolved URL with the item's uuid |
| Submission.SendItemErrors | queue.js:173-203 | a transport failure rejects with its own message; a reply that is not `status: 'OK'` rejects with the reply's `mensagem` when that is truthy, else with `Falha no upload` for the upload and `Falha ao gravar linha` for the write |
| Submission.SendItemErrorText | queue.js:173-203 | every rejection of `sendItem` carries a non-empty message |
| Sync.FailFast | queue.js:214-235 | the items tried are ascending, each passed its online check, every item up to the first failure whose check passed was tried, and the failed one is the last tried |
| Sync.OnlineBelowMember | queue.js:218 | an item is tried before the first failure iff its online check passed |
| Sync.UploadsAppend | queue.js:220 | the uploads of two traces put together are the uploads of each in order |
| Sync.SendItemUploads | queue.js:150-172 | one `sendItem` uploads exactly once, with its own uuid |
| Sync.SendItemConfirmed | queue.js:173-204 | a successful `sendItem` leaves a confirmed upload immediately followed by a confirmed write of the same uuid |
| Sync.SendItemFailed | queue.js:173-204 | a failed `sendItem` does not end with a confirmed upload followed by a confirmed write of its item |
| Sync.ReplayAppend | queue.js:214-224 | trying one more item extends the trace by exactly that item's `sendItem` POSTs and leaves the earlier items' outcomes as they were |
| Sync.ReplayUploads | queue.js:214-224 | delivering the items tried one after another uploads each of them exactly once, in the order tried |
| Sync.ReplayConfirmed | queue.js:214-224 | every item tried whose `sendItem` succeeded has a confirmed upload immediately followed by a confirmed write of its uuid somewhere in the trace |
| Sync.ReplayFailed | queue.js:214-224 | when the last item's `sendItem` failed, the trace does not end with a confirmed upload and write of that item |
| Sync.NextInv | queue.js:216-225 | one step of the walk keeps its invariant: the POSTs so far are exactly those of `sendItem` on each item tried, in order; every item tried before the stop was delivered by its own `sendItem` and its delete did not abort; the item the walk stopped at failed to deliver or had its delete abort; only delivered items left the store |
| Sync.WalkSnapshot | queue.js:214-226 | the walk stops after the first failure or at the end, having tried exactly the online items up to there; its POSTs are exactly the `sendItem` POSTs of those items in order; it deleted exactly the delivered ones, and the failed item's `sendItem` rejected or its delete aborted |
| Sync.Drain | queue.js:212-235 | draining a snapshot clears RUNNING and resolves true iff it had items and every item tried was delivered by its own `sendItem` and deleted; the POSTs are exactly those `sendItem` calls |
| Sync.DrainedOk | queue.js:214-235 | a pass stopped at no item exactly when every item tried was delivered by its own `sendItem` and its delete did not abort |
| Sync.LastTried | queue.js:214-235 | the item a pass stopped at is the last one it tried |
| Sync.DrainedUploads | queue.js:214-226 | a drained pass uploaded each item tried exactly once, in snapshot order |
| Sync.DrainedConfirmed | queue.js:214-226 | in a drained pass every item tried other than the one it stopped at was confirmed by an upload and a write |
| Sync.DrainedStop | queue.js:220-235 | the item a pass stopped at had its delete abort, or the trace does not end with its confirmed upload and write |
| Sync.FlushOnce | queue.js:208-241 | a running pass or an offline browser makes it a no-op; otherwise RUNNING is cleared on every exit, a failed read changes nothing, the snapshot is the full ordered scan, the POSTs are exactly the `sendItem` calls of the items tried, only items delivered and not hit by an aborted delete leave the store, and it resolves true iff the snapshot was non-empty and every item tried was delivered and deleted |
| Uuid.FillMatches | queue.js:247 | whatever the random draws, every `x` becomes a lower-case hex digit, the `y` one of `8 9 a b`, and every other character stays |
| Uuid.FillDraws | queue.js:247 | every string of the template's shape is produced by some draws |
| Uuid.TemplateSlots | queue.js:247 | the template makes 31 random draws |
| Uuid.GenerateShape | queue.js:247 | a generated id is a lower-case version-4 UUID: 36 characters, hyphens at 8, 13, 18 and 23, `4` at 14, a variant digit at 19 |
| Uuid.GenerateOnto | queue.js:247 | every lower-case version-4 UUID can be generated |
| Facade.CompleteFields | queue.js:246-250 | only `submission_uuid` and `created_at` change, and only when falsy: to a version-4 UUID and to the clock reading |
| Facade.Dispatch | queue.js:252-270 | a success is either sent or queued, never both; sent iff online and `sendItem` succeeded; offline makes no POST |
| Facade.DispatchDelivered | queue.js:254-258 | a sent item was confirmed by both POSTs and the outbox is untouched |
| Facade.DispatchQueued | queue.js:259-270 | a queued item is in the outbox under its key, with every other record kept |
| Facade.DispatchErrors | queue.js:259-270 | the call rejects iff the item was not sent and `putItem` failed, and then the outbox is unchanged |
| Facade.QueueOrSendNow | queue.js:243-271 | the item leaves with only its falsy uuid and creation time filled in; a success is sent or queued, never both, and sent iff online and `sendItem` succeeded; a sent item was confirmed by the server and the outbox is untouched; a queued item is in the outbox under its key; a rejection leaves the outbox unchanged; offline makes no POST |
| Facade.QueueOrSendNowKey | queue.js:245-248 | an item without a uuid gets a fresh version-4 UUID as its key, so the call can only reject on an aborted transaction |

## Left out

- IndexedDB plumbing: opening the database, the upgrade handler, the cached
  handle and transaction events. Each transaction is modelled by its net
  effect and one abort flag.
- `XMLHttpRequest` itself, headers and `readyState`. Also the synchronous
  exception path of `postFormXHR` (queue.js:117-120): constructing and sending
  a request is assumed not to throw.
- `JSON.parse`: a response body is given as already parsed (`Reply`) or as
  not JSON. Nested JSON values are left out, and a reply property is a flat
  value.
- Floating-point numbers: numbers are integers. `NaN`, `-0` and numbers of
  21 or more digits, which `String(n)` writes in exponent form, are left out.
  `Math.random()*16|0` is given directly as a nibble.
- `toISOString()` is an oracle string, and `Date.now()` is an integer parameter.
- Lone surrogates: characters are Unicode scalar values, so the URIError
  `encodeURIComponent` throws on a lone surrogate cannot arise.
- Submission.ToLower: covers ASCII letters only. The result of `normChuva`
  does not depend on it, since every truthy value gives `'SIM'`.
- Key order between strings uses code points rather than UTF-16 code units.
  They differ only for characters above U+FFFF compared with characters in
  U+E000–U+FFFF.
- `hasOwnProperty` / `for…in` order of `encodeForm`: payloads are field
  sequences in the literal's order, which is the order `for…in` gives
  string-keyed own properties.
- Concurrency: other writers interleaving with a drain pass, the timers, the
  `online` listener and the exported `EvidenteQueue` object (queue.js:273-283).
  Single-flight is modelled by the RUNNING flag passed to and returned by
  `Sync.FlushOnce`.
- Sync.FlushOnce: the online checks of one pass are a finite set of check
  numbers, so an unbounded number of online answers is not modelled.
- Outbox.Put: `aborts` stands for a transaction failure signalled by an
  `error` event, which rejects the promise (queue.js:44). queue.js sets no
  `onabort` handler, so an abort that fires only `abort` (a commit-time
  QuotaExceededError, for example) leaves the promise pending forever. The
  model does not represent a pending promise. The same holds for
  Outbox.GetAll (queue.js:65) and Outbox.Del (queue.js:75), and during
  `flushOnce` such a hang keeps RUNNING set.
- Facade.Dispatch: covers only calls whose POSTs and `putItem` settle. A POST
  that never settles (queue.js:94-116 sets no timeout) or a `putItem` whose
  transaction aborts without an `error` event leaves `queueOrSendNow` pending,
  with the item neither sent nor stored.
- Sync.FlushOnce: covers only passes whose POSTs settle. `postFormXHR` sets no
  timeout (queue.js:94-116), so a POST that never settles leaves the pass
  suspended at queue.js:220 with RUNNING still set (queue.js:210), so every
  later `flushOnce` returns false at once (queue.js:209).
- The `onSent` / `onQueued` callbacks: they run inside `try`/`catch` and
  cannot change the outcome. Logging (`dlog`, `derr`) is left out too.
- service-worker.js and the server's idempotent handling of a repeated
  `submission_uuid` are not part of this model.

=== FILE: drain.dfy ===
/** One drain pass of the sync engine (`flushOnce`, queue.js:208-241).

    The pass runs only when no other pass is running (the module-wide RUNNING
    flag) and the browser reports being online. It reads the whole outbox once,
    through the `created_at` index, and walks that snapshot in order. Before
    each item it asks again whether the browser is online and skips the item
    if not. Otherwise it delivers the item with `sendItem` and deletes it once
    delivery succeeded. The first failed delivery or delete rejects the promise
    chain, so no later item is tried. RUNNING is cleared on every way out.

    The environment is explicit. The `navigator.onLine` checks of a pass are
    numbered: check 0 is the one on entry and check `i + 1` the one made before
    snapshot item `i`; `online` holds the numbers of the checks that answer
    true (a pass makes finitely many). POSTs are numbered from 0 in the order
    they are made; `faults` says which store transactions
    abort. The pass is atomic with respect to other writers of the store. */
module Sync {
  import opened Results
  import opened Js
  import opened Keys
  import opened Outbox
  import opened Transport
  import opened Submission

  datatype Faults = Faults(scan: bool, del: nat -> bool)  // getAll aborts; delete of snapshot item i aborts

  /** The observable effect of a pass: its resolved value, the RUNNING flag
      afterwards, the store afterwards, the snapshot it read, the snapshot
      positions it tried to deliver (in order), the position whose delivery or
      delete failed, if any, and every POST made. */
  datatype Flush = Flush(
    ok: bool,
    running: bool,
    store: Store,
    snapshot: seq<Item>,
    attempted: seq<nat>,
    failedAt: Option<nat>,
    calls: seq<Request>)

  /** The snapshot positions below `n` whose online check passes, in order. */
  function OnlineBelow(n: nat, online: set<nat>): seq<nat> {
    if n == 0 then [] else OnlineBelow(n - 1, online) + (if n in online then [n - 1] else [])
  }

  lemma {:induction false} OnlineBelowMember(n: nat, online: set<nat>)
    ensures forall x: nat :: x in OnlineBelow(n, online) <==> x < n && (x + 1 in online)
    ensures forall j :: 0 <= j < |OnlineBelow(n, online)| ==> OnlineBelow(n, online)[j] < n
  {
    if n > 0 {
      OnlineBelowMember(n - 1, online);
    }
  }

  lemma {:induction false} OnlineBelowAscending(n: nat, online: set<nat>)
    ensures forall j, k :: 0 <= j < k < |OnlineBelow(n, online)| ==> OnlineBelow(n, online)[j] < OnlineBelow(n, online)[k]
  {
    if n > 0 {
      OnlineBelowAscending(n - 1, online);
      OnlineBelowMember(n - 1, online);
    }
  }

  /** Where a walk over `n` items stops: right after the failed item, or at the end. */
  function Reach(failedAt: Option<nat>, n: nat): nat {
    if failedAt.Some? then failedAt.value + 1 else n
  }

  /** Fail-fast, read position by position: the items tried are in ascending
      order, each one passed its online check, and every item that passes it
      is tried up to the first failure, which is the last item tried. */
  lemma FailFast(attempted: seq<nat>, failedAt: Option<nat>, n: nat, online: set<nat>)
    requires attempted == OnlineBelow(Reach(failedAt, n), online)
    requires failedAt.Some? ==> failedAt.value < n && (failedAt.value + 1 in online)
    ensures forall i :: 0 <= i < n ==>
      (i in attempted <==> (i + 1 in online) && (failedAt.None? || i <= failedAt.value))
    ensures forall j :: 0 <= j < |attempted| ==> attempted[j] < n && (attempted[j] + 1 in online)
    ensures forall j, k :: 0 <= j < k < |attempted| ==> attempted[j] < attempted[k]
    ensures failedAt.Some? ==> |attempted| > 0 && attempted[|attempted| - 1] == failedAt.value
  {
    OnlineBelowMember(Reach(failedAt, n), online);
    OnlineBelowAscending(Reach(failedAt, n), online);
    forall j | 0 <= j < |attempted| ensures attempted[j] + 1 in online {
      assert attempted[j] in attempted;
    }
  }

  /** The trace holds a confirmed upload of `uuid` immediately followed by a
      confirmed write of `uuid`. */
  ghost predicate Confirmed(calls: seq<Request>, w: Wire, uuid: Value) {
    exists j :: ConfirmedAt(calls, w, uuid, j)
  }

  predicate ConfirmedAt(calls: seq<Request>, w: Wire, uuid: Value, j: int) {
    && 1 <= j < |calls|
    && ActionOf(calls[j - 1]) == Str("upload_foto") && UuidOf(calls[j - 1]) == uuid && Confirms(w.net(j - 1))
    && ActionOf(calls[j]) == Str("gravar_linha_lt08") && UuidOf(calls[j]) == uuid && Confirms(w.net(j))
  }

  /** The `submission_uuid` of each upload in a trace, in order. */
  function Uploads(calls: seq<Request>): seq<Value> {
    if |calls| == 0 then []
    else
      var last := calls[|calls| - 1];
      Uploads(calls[..|calls| - 1]) + (if ActionOf(last) == Str("upload_foto") then [UuidOf(last)] else [])
  }

  /** The `submission_uuid` of the snapshot items at the given positions. */
  function UuidsAt(snap: seq<Item>, idx: seq<nat>): seq<Value> {
    if |idx| == 0 then []
    else
      var i := idx[|idx| - 1];
      UuidsAt(snap, idx[..|idx| - 1]) + (if i < |snap| then [snap[i].submissionUuid] else [])
  }

  /** The positions whose delivery and delete both succeeded: every attempted
      one but the failed one, which is always the last attempted. */
  function Delivered(attempted: seq<nat>, failedAt: Option<nat>): seq<nat> {
    if failedAt.Some? && |attempted| > 0 then attempted[..|attempted| - 1] else attempted
  }

  /** The primary keys of the snapshot items at the given positions. */
  function KeysAt(snap: seq<Item>, idx: seq<nat>): set<Key> {
    if |idx| == 0 then {}
    else
      var i := idx[|idx| - 1];
      KeysAt(snap, idx[..|idx| - 1]) + (if i < |snap| && PrimaryKey(snap[i]).Some? then {PrimaryKey(snap[i]).value} else {})
  }

  lemma {:induction false} UploadsAppend(a: seq<Request>, b: seq<Request>)
    ensures Uploads(a + b) == Uploads(a) + Uploads(b)
    decreases |b|
  {
    if |b| > 0 {
      UploadsAppend(a, b[..|b| - 1]);
      assert (a + b)[..|a + b| - 1] == a + b[..|b| - 1];
    } else {
      assert a + b == a;
    }
  }

  lemma ConfirmedExtend(calls: seq<Request>, more: seq<Request>, w: Wire, uuid: Value)
    requires Confirmed(calls, w, uuid)
    ensures Confirmed(calls + more, w, uuid)
  {
    var j :| ConfirmedAt(calls, w, uuid, j);
    assert (calls + more)[j - 1] == calls[j - 1] && (calls + more)[j] == calls[j];
    assert ConfirmedAt(calls + more, w, uuid, j);
  }

  /** One `sendItem` makes exactly one upload, of its own item. */
  lemma SendItemUploads(it: Item, h: Host, w: Wire, t: nat)
    ensures Uploads(SendItem(it, h, w, t).calls) == [it.submissionUuid]
  {
    var o := SendItem(it, h, w, t);
    SendItemRequests(it, h, w, t);
    assert [o.calls[0]][..0] == [];
    assert Uploads([o.calls[0]]) == [it.submissionUuid];
    if |o.calls| == 2 {
      assert o.calls[..1] == [o.calls[0]];
    }
  }

  /** A successful `sendItem` leaves a confirmed upload and write in the trace. */
  lemma SendItemConfirmed(calls: seq<Request>, it: Item, h: Host, w: Wire)
    requires SendItem(it, h, w, |calls|).result.Ok?
    ensures Confirmed(calls + SendItem(it, h, w, |calls|).calls, w, it.submissionUuid)
  {
    var o := SendItem(it, h, w, |calls|);
    SendItemRequests(it, h, w, |calls|);
    var c := calls + o.calls;
    var j := |calls| + 1;
    assert c[j - 1] == o.calls[0] && c[j] == o.calls[1];
    assert ConfirmedAt(c, w, it.submissionUuid, j);
  }

  /** A failed `sendItem` does not end the trace with a confirmed upload and
      write of its item: either the upload was the last POST, or the write
      was not confirmed. */
  lemma SendItemFailed(calls: seq<Request>, it: Item, h: Host, w: Wire)
    requires SendItem(it, h, w, |calls|).result.Err?
    ensures !ConfirmedAt(calls + SendItem(it, h, w, |calls|).calls, w, it.submissionUuid,
                         |calls + SendItem(it, h, w, |calls|).calls| - 1)
  {
    var o := SendItem(it, h, w, |calls|);
    SendItemRequests(it, h, w, |calls|);
    var c := calls + o.calls;
    assert c[|c| - 1] == o.calls[|o.calls| - 1];
  }

  /** The reference trace: the POSTs of delivering the snapshot items at
      positions `att` one after another, each `sendItem` numbering its POSTs
      from where the previous one stopped. */
  function Replay(snap: seq<Item>, att: seq<nat>, h: Host, w: Wire): seq<Request> {
    if |att| == 0 then []
    else
      var pre := Replay(snap, att[..|att| - 1], h, w);
      var i := att[|att| - 1];
      pre + (if i < |snap| then SendItem(snap[i], h, w, |pre|).calls else [])
  }

  /** The outcome of `sendItem` for the k-th position tried. */
  function OutcomeAt(snap: seq<Item>, att: seq<nat>, h: Host, w: Wire, k: nat): SendOutcome
    requires k < |att| && att[k] < |snap|
  {
    SendItem(snap[att[k]], h, w, |Replay(snap, att[..k], h, w)|)
  }

  /** The POSTs are exactly those of the `sendItem` calls of the items tried,
      in order; every item tried before the stop was delivered, and the item
      the walk stopped at failed to deliver or had its delete abort. */
  ghost predicate Replays(attempted: seq<nat>, failedAt: Option<nat>, calls: seq<Request>,
                          snap: seq<Item>, h: Host, w: Wire, faults: Faults) {
    && (forall k :: 0 <= k < |attempted| ==> attempted[k] < |snap|)
    && calls == Replay(snap, attempted, h, w)
    && (forall k :: 0 <= k < |attempted| && (failedAt.None? || k + 1 < |attempted|) ==>
          OutcomeAt(snap, attempted, h, w, k).result.Ok?)
    && (failedAt.Some? ==>
          && |attempted| > 0
          && (OutcomeAt(snap, attempted, h, w, |attempted| - 1).result.Err? || faults.del(failedAt.value)))
  }

  /** Every item tried was delivered and deleted. */
  ghost predicate AllDelivered(attempted: seq<nat>, snap: seq<Item>, h: Host, w: Wire, faults: Faults) {
    forall k :: 0 <= k < |attempted| ==>
      attempted[k] < |snap| && OutcomeAt(snap, attempted, h, w, k).result.Ok? && !faults.del(attempted[k])
  }

  /** Extending the tried positions by `i` extends the trace by its `sendItem`
      and keeps the earlier outcomes. */
  lemma ReplayAppend(snap: seq<Item>, att: seq<nat>, i: nat, h: Host, w: Wire)
    requires i < |snap|
    requires forall k :: 0 <= k < |att| ==> att[k] < |snap|
    ensures Replay(snap, att + [i], h, w) ==
      Replay(snap, att, h, w) + SendItem(snap[i], h, w, |Replay(snap, att, h, w)|).calls
    ensures OutcomeAt(snap, att + [i], h, w, |att|) == SendItem(snap[i], h, w, |Replay(snap, att, h, w)|)
    ensures forall k :: 0 <= k < |att| ==> OutcomeAt(snap, att + [i], h, w, k) == OutcomeAt(snap, att, h, w, k)
  {
    var a := att + [i];
    assert a[..|a| - 1] == att;
    forall k | 0 <= k < |att| ensures OutcomeAt(snap, a, h, w, k) == OutcomeAt(snap, att, h, w, k) {
      assert a[..k] == att[..k];
    }
  }

  /** The state of the walk over the snapshot: the store, the positions tried,
      the failed position, if any, and the POSTs made. */
  datatype Walk = Walk(cur: Store, attempted: seq<nat>, failedAt: Option<nat>, calls: seq<Request>)

  /** What holds after the walk has dealt with the first `i` snapshot items:
      the online ones were tried, the walk stopped right after a failure, and
      what it did is settled. */
  ghost predicate WalkInv(p: Walk, i: nat, store: Store, snap: seq<Item>, h: Host, w: Wire, online: set<nat>, faults: Faults) {
    && i <= |snap|
    && p.attempted == OnlineBelow(i, online)
    && (p.failedAt.Some? ==> p.failedAt.value + 1 == i && i in online)
    && Settled(p, store, snap, h, w, faults)
  }

  /** What the walk has done, wherever it is: the POSTs are exactly those of
      the items' `sendItem` calls, the stop is accounted for, no delivered
      item's delete aborted, and exactly the delivered items left the store. */
  ghost predicate Settled(p: Walk, store: Store, snap: seq<Item>, h: Host, w: Wire, faults: Faults) {
    && p.cur == store - KeysAt(snap, Delivered(p.attempted, p.failedAt))
    && Accounted(p.attempted, p.failedAt, faults)
    && Replays(p.attempted, p.failedAt, p.calls, snap, h, w, faults)
  }

  /** No delivered item's delete aborted. */
  ghost predicate Accounted(attempted: seq<nat>, failedAt: Option<nat>, faults: Faults) {
    forall x :: x in Delivered(attempted, failedAt) ==> !faults.del(x)
  }

  /** The reference trace uploads each item tried exactly once, in order. */
  lemma {:induction false} ReplayUploads(snap: seq<Item>, att: seq<nat>, h: Host, w: Wire)
    requires forall k :: 0 <= k < |att| ==> att[k] < |snap|
    ensures Uploads(Replay(snap, att, h, w)) == UuidsAt(snap, att)
    decreases |att|
  {
    if |att| > 0 {
      var pre := att[..|att| - 1];
      var i := att[|att| - 1];
      ReplayUploads(snap, pre, h, w);
      var r := Replay(snap, pre, h, w);
      UploadsAppend(r, SendItem(snap[i], h, w, |r|).calls);
      SendItemUploads(snap[i], h, w, |r|);
    }
  }

  /** In the reference trace, every item whose `sendItem` succeeded has a
      confirmed upload immediately followed by a confirmed write. */
  lemma {:induction false} ReplayConfirmed(snap: seq<Item>, att: seq<nat>, h: Host, w: Wire, k: nat)
    requires forall j :: 0 <= j < |att| ==> att[j] < |snap|
    requires k < |att| && OutcomeAt(snap, att, h, w, k).result.Ok?
    ensures Confirmed(Replay(snap, att, h, w), w, snap[att[k]].submissionUuid)
    decreases |att|
  {
    var pre := att[..|att| - 1];
    var i := att[|att| - 1];
    assert att == pre + [i];
    ReplayAppend(snap, pre, i, h, w);
    var r := Replay(snap, pre, h, w);
    if k == |att| - 1 {
      SendItemConfirmed(r, snap[i], h, w);
    } else {
      assert pre[k] == att[k];
      ReplayConfirmed(snap, pre, h, w, k);
      ConfirmedExtend(r, SendItem(snap[i], h, w, |r|).calls, w, snap[att[k]].submissionUuid);
    }
  }

  /** When the last item's `sendItem` failed, the reference trace does not end
      with a confirmed upload and write of it. */
  lemma ReplayFailed(snap: seq<Item>, att: seq<nat>, calls: seq<Request>, h: Host, w: Wire)
    requires forall j :: 0 <= j < |att| ==> att[j] < |snap|
    requires calls == Replay(snap, att, h, w)
    requires |att| > 0 && OutcomeAt(snap, att, h, w, |att| - 1).result.Err?
    ensures !ConfirmedAt(calls, w, snap[att[|att| - 1]].submissionUuid, |calls| - 1)
  {
    var pre := att[..|att| - 1];
    var i := att[|att| - 1];
    assert att == pre + [i];
    ReplayAppend(snap, pre, i, h, w);
    var r := Replay(snap, pre, h, w);
    assert calls == r + SendItem(snap[i], h, w, |r|).calls;
    SendItemFailed(r, snap[i], h, w);
  }

  /** Item `i` once `sendItem` has produced `o`: deleted after a delivery, the
      walk stopped after a failed delivery or delete (queue.js:220-223). */
  function After(p: Walk, i: nat, snap: seq<Item>, o: SendOutcome, faults: Faults): Walk
    requires i < |snap| && PrimaryKey(snap[i]).Some?
  {
    var attempted := p.attempted + [i];
    if o.result.Err? then Walk(p.cur, attempted, Some(i), p.calls + o.calls)
    else match Del(p.cur, PrimaryKey(snap[i]).value, faults.del(i))
      case Err(_) => Walk(p.cur, attempted, Some(i), p.calls + o.calls)
      case Ok(s) => Walk(s, attempted, None, p.calls + o.calls)
  }

  /** The walk after item `i`: it records the item and the POSTs, and either
      deletes the item's key or stops at the item. */
  lemma AfterShape(p: Walk, i: nat, snap: seq<Item>, o: SendOutcome, faults: Faults)
    requires i < |snap| && PrimaryKey(snap[i]).Some?
    ensures var q := After(p, i, snap, o, faults);
      && q.attempted == p.attempted + [i] && q.calls == p.calls + o.calls
      && (q.failedAt.None? <==> o.result.Ok? && !faults.del(i))
      && (q.failedAt.Some? ==> q.failedAt == Some(i) && q.cur == p.cur)
      && (q.failedAt.None? ==> q.cur == p.cur - {PrimaryKey(snap[i]).value})
  {
  }

  lemma StoreStep(store: Store, snap: seq<Item>, attempted: seq<nat>, i: nat, cur: map<Key, Item>)
    requires i < |snap| && PrimaryKey(snap[i]).Some?
    requires cur == store - KeysAt(snap, attempted)
    ensures cur - {PrimaryKey(snap[i]).value} == store - KeysAt(snap, attempted + [i])
  {
    assert (attempted + [i])[..|attempted|] == attempted;
    assert KeysAt(snap, attempted + [i]) == KeysAt(snap, attempted) + {PrimaryKey(snap[i]).value};
  }

  /** Delivering an online item keeps the walk invariant. */
  lemma AfterInv(p: Walk, i: nat, store: Store, snap: seq<Item>, h: Host, w: Wire, online: set<nat>, faults: Faults)
    requires i < |snap| && p.failedAt.None? && i + 1 in online && PrimaryKey(snap[i]).Some?
    requires WalkInv(p, i, store, snap, h, w, online, faults)
    ensures WalkInv(After(p, i, snap, SendItem(snap[i], h, w, |p.calls|), faults), i + 1, store, snap, h, w, online, faults)
  {
    var o := SendItem(snap[i], h, w, |p.calls|);
    var q := After(p, i, snap, o, faults);
    AfterShape(p, i, snap, o, faults);
    assert Delivered(p.attempted, p.failedAt) == p.attempted;
    if q.failedAt.None? {
      StoreStep(store, snap, p.attempted, i, p.cur);
      assert Delivered(q.attempted, q.failedAt) == p.attempted + [i];
    } else {
      assert Delivered(q.attempted, q.failedAt) == p.attempted;
    }
    ReplayStep(p, q, i, snap, h, w, faults);
  }

  lemma ReplayStep(p: Walk, q: Walk, i: nat, snap: seq<Item>, h: Host, w: Wire, faults: Faults)
    requires i < |snap| && p.failedAt.None?
    requires Replays(p.attempted, p.failedAt, p.calls, snap, h, w, faults)
    requires q.attempted == p.attempted + [i] && q.calls == p.calls + SendItem(snap[i], h, w, |p.calls|).calls
    requires q.failedAt.None? <==> SendItem(snap[i], h, w, |p.calls|).result.Ok? && !faults.del(i)
    requires q.failedAt.Some? ==> q.failedAt == Some(i)
    ensures Replays(q.attempted, q.failedAt, q.calls, snap, h, w, faults)
  {
    ReplayAppend(snap, p.attempted, i, h, w);
  }

  /** One step of the walk at item `i`: skipped while offline, otherwise
      delivered and, once delivered, deleted. */
  function Next(p: Walk, i: nat, snap: seq<Item>, h: Host, w: Wire, online: set<nat>, faults: Faults): Walk
    requires i < |snap| && PrimaryKey(snap[i]).Some?
  {
    if i + 1 in online then After(p, i, snap, SendItem(snap[i], h, w, |p.calls|), faults) else p
  }

  lemma NextInv(p: Walk, i: nat, store: Store, snap: seq<Item>, h: Host, w: Wire, online: set<nat>, faults: Faults)
    requires i < |snap| && p.failedAt.None? && PrimaryKey(snap[i]).Some?
    requires WalkInv(p, i, store, snap, h, w, online, faults)
    ensures WalkInv(Next(p, i, snap, h, w, online, faults), i + 1, store, snap, h, w, online, faults)
  {
    if i + 1 in online {
      AfterInv(p, i, store, snap, h, w, online, faults);
    } else {
      assert OnlineBelow(i + 1, online) == OnlineBelow(i, online);
    }
  }

  /** Before the first item nothing was tried, sent or deleted. */
  lemma WalkStart(store: Store, snap: seq<Item>, h: Host, w: Wire, online: set<nat>, faults: Faults)
    ensures WalkInv(Walk(store, [], None, []), 0, store, snap, h, w, online, faults)
  {
    assert store - KeysAt(snap, []) == store;
  }

  /** One iteration of the walk's loop body (queue.js:215-225). */
  method Advance(p: Walk, i: nat, store: Store, snap: seq<Item>, h: Host, w: Wire, online: set<nat>, faults: Faults)
    returns (q: Walk)
    requires i < |snap| && p.failedAt.None? && PrimaryKey(snap[i]).Some?
    requires WalkInv(p, i, store, snap, h, w, online, faults)
    ensures WalkInv(q, i + 1, store, snap, h, w, online, faults)
  {
    NextInv(p, i, store, snap, h, w, online, faults);
    q := Next(p, i, snap, h, w, online, faults);
  }

  /** The walk over a snapshot (queue.js:214-226): each item in turn, skipped
      while offline, delivered then deleted otherwise, until the first failure.
      `n` is the number of snapshot items the walk got through. */
  method WalkSnapshot(store: Store, snap: seq<Item>, h: Host, w: Wire, online: set<nat>, faults: Faults)
    returns (p: Walk, n: nat)
    requires forall i :: 0 <= i < |snap| ==> PrimaryKey(snap[i]).Some?
    ensures WalkInv(p, n, store, snap, h, w, online, faults)
    ensures n == Reach(p.failedAt, |snap|)
  {
    p := Walk(store, [], None, []);
    n := 0;
    WalkStart(store, snap, h, w, online, faults);
    while n < |snap| && p.failedAt.None?
      invariant WalkInv(p, n, store, snap, h, w, online, faults)
    {
      p := Advance(p, n, store, snap, h, w, online, faults);
      n := n + 1;
    }
  }

  /** Every record of a scan has a valid primary key. */
  lemma ScanKeyed(store: Store, s: seq<Item>)
    requires IsScan(store, s)
    ensures forall i :: 0 <= i < |s| ==> PrimaryKey(s[i]).Some?
  {
  }

  /** The effect of walking snapshot `snap` of `store`: the items tried are
      those whose online check passed, in snapshot order, up to and including
      the first one whose delivery or delete failed; the POSTs are exactly
      those of their `sendItem` calls; and exactly the delivered items left
      the store. */
  ghost predicate Drained(f: Flush, store: Store, snap: seq<Item>, h: Host, w: Wire, online: set<nat>, faults: Faults) {
    && f.snapshot == snap
    && (f.failedAt.Some? ==> f.failedAt.value < |snap| && f.failedAt.value + 1 in online)
    && f.attempted == OnlineBelow(Reach(f.failedAt, |snap|), online)
    && Settled(Walk(f.store, f.attempted, f.failedAt, f.calls), store, snap, h, w, faults)
  }

  /** An empty snapshot is drained by doing nothing. */
  lemma NothingDrained(store: Store, snap: seq<Item>, h: Host, w: Wire, online: set<nat>, faults: Faults)
    requires |snap| == 0
    ensures Drained(Flush(false, false, store, snap, [], None, []), store, snap, h, w, online, faults)
  {
    assert store - KeysAt(snap, []) == store;
  }

  /** A finished walk has drained its snapshot. */
  lemma WalkDrained(p: Walk, n: nat, store: Store, snap: seq<Item>, h: Host, w: Wire, online: set<nat>, faults: Faults)
    requires WalkInv(p, n, store, snap, h, w, online, faults) && n == Reach(p.failedAt, |snap|)
    ensures Drained(Flush(p.failedAt.None?, false, p.cur, snap, p.attempted, p.failedAt, p.calls), store, snap, h, w, online, faults)
  {
    assert Walk(p.cur, p.attempted, p.failedAt, p.calls) == p;
    assert p.attempted == OnlineBelow(Reach(p.failedAt, |snap|), online);
  }

  /** The failed item is the last one tried. */
  lemma LastTried(attempted: seq<nat>, failedAt: Option<nat>, n: nat, online: set<nat>)
    requires attempted == OnlineBelow(Reach(failedAt, n), online)
    requires failedAt.Some? ==> failedAt.value < n && (failedAt.value + 1 in online)
    requires failedAt.Some?
    ensures |attempted| > 0 && attempted[|attempted| - 1] == failedAt.value
  {
    FailFast(attempted, failedAt, n, online);
  }

  /** A pass that followed the reference trace uploaded each item tried
      once, in order. */
  lemma DrainedUploads(attempted: seq<nat>, failedAt: Option<nat>, calls: seq<Request>,
                       snap: seq<Item>, h: Host, w: Wire, faults: Faults)
    requires Replays(attempted, failedAt, calls, snap, h, w, faults)
    ensures Uploads(calls) == UuidsAt(snap, attempted)
  {
    ReplayUploads(snap, attempted, h, w);
  }

  /** In a pass that followed the reference trace, each delivered item has a
      confirmed upload immediately followed by a confirmed write. */
  lemma DrainedConfirmed(attempted: seq<nat>, failedAt: Option<nat>, calls: seq<Request>,
                         snap: seq<Item>, h: Host, w: Wire, online: set<nat>, faults: Faults)
    requires failedAt.Some? ==> failedAt.value < |snap| && failedAt.value + 1 in online
    requires attempted == OnlineBelow(Reach(failedAt, |snap|), online)
    requires Replays(attempted, failedAt, calls, snap, h, w, faults)
    ensures forall x :: 0 <= x < |snap| && x in attempted && Some(x) != failedAt ==>
      Confirmed(calls, w, snap[x].submissionUuid)
  {
    FailFast(attempted, failedAt, |snap|, online);
    forall x | 0 <= x < |snap| && x in attempted && Some(x) != failedAt
      ensures Confirmed(calls, w, snap[x].submissionUuid)
    {
      var k :| 0 <= k < |attempted| && attempted[k] == x;
      ReplayConfirmed(snap, attempted, h, w, k);
    }
  }

  /** The item a pass stopped at had its delete abort, or the trace does not
      end with a confirmed upload and write of it. */
  lemma DrainedStop(attempted: seq<nat>, failedAt: Option<nat>, calls: seq<Request>,
                    snap: seq<Item>, h: Host, w: Wire, online: set<nat>, faults: Faults)
    requires failedAt.Some? ==> failedAt.value < |snap| && failedAt.value + 1 in online
    requires attempted == OnlineBelow(Reach(failedAt, |snap|), online)
    requires Replays(attempted, failedAt, calls, snap, h, w, faults)
    requires failedAt.Some?
    ensures faults.del(failedAt.value) || !ConfirmedAt(calls, w, snap[failedAt.value].submissionUuid, |calls| - 1)
  {
    LastTried(attempted, failedAt, |snap|, online);
    if !faults.del(failedAt.value) {
      ReplayFailed(snap, attempted, calls, h, w);
    }
  }

  /** A drained snapshot had no failure exactly when every item tried was
      delivered by its own `sendItem` and then deleted. */
  lemma DrainedOk(attempted: seq<nat>, failedAt: Option<nat>, calls: seq<Request>,
                   snap: seq<Item>, h: Host, w: Wire, online: set<nat>, faults: Faults)
    requires failedAt.Some? ==> failedAt.value < |snap| && failedAt.value + 1 in online
    requires attempted == OnlineBelow(Reach(failedAt, |snap|), online)
    requires Accounted(attempted, failedAt, faults)
    requires Replays(attempted, failedAt, calls, snap, h, w, faults)
    ensures failedAt.None? <==> AllDelivered(attempted, snap, h, w, faults)
  {
    FailFast(attempted, failedAt, |snap|, online);
    if failedAt.None? {
      assert Delivered(attempted, failedAt) == attempted;
      forall k | 0 <= k < |attempted| ensures !faults.del(attempted[k]) {
        assert attempted[k] in Delivered(attempted, failedAt);
      }
    } else {
      var last := |attempted| - 1;
      assert attempted[last] == failedAt.value;
      assert !(OutcomeAt(snap, attempted, h, w, last).result.Ok? && !faults.del(attempted[last]));
    }
  }

  /** A drained snapshot had no failure exactly when every item tried was
      delivered and deleted. */
  lemma DrainedAll(f: Flush, store: Store, snap: seq<Item>, h: Host, w: Wire, online: set<nat>, faults: Faults)
    requires Drained(f, store, snap, h, w, online, faults)
    ensures f.failedAt.None? <==> AllDelivered(f.attempted, snap, h, w, faults)
  {
    DrainedOk(f.attempted, f.failedAt, f.calls, snap, h, w, online, faults);
  }

  /** The pass once the snapshot is read (queue.js:213-233): walks it, and
      reports success when it had work and nothing failed. */
  method Drain(store: Store, snap: seq<Item>, h: Host, w: Wire, online: set<nat>, faults: Faults)
    returns (f: Flush)
    requires forall i :: 0 <= i < |snap| ==> PrimaryKey(snap[i]).Some?
    ensures Drained(f, store, snap, h, w, online, faults)
    ensures !f.running
    ensures f.ok <==> |snap| > 0 && f.failedAt.None?
    // the same, read through the items: every item tried was delivered and deleted
    ensures f.ok <==> |snap| > 0 && AllDelivered(f.attempted, snap, h, w, faults)
  {
    if |snap| == 0 {
      NothingDrained(store, snap, h, w, online, faults);
      return Flush(false, false, store, snap, [], None, []);
    }
    var p, n := WalkSnapshot(store, snap, h, w, online, faults);
    WalkDrained(p, n, store, snap, h, w, online, faults);
    f := Flush(p.failedAt.None?, false, p.cur, snap, p.attempted, p.failedAt, p.calls);
    DrainedAll(f, store, snap, h, w, online, faults);
  }

  /** `flushOnce()` (queue.js:208-241). */
  method FlushOnce(running: bool, store: Store, h: Host, w: Wire, online: set<nat>, faults: Faults)
    returns (f: Flush)
    // a pass already running, or being offline, makes the call a no-op
    ensures running || 0 !in online ==>
      f == Flush(false, running, store, [], [], None, [])
    // otherwise RUNNING is clear again whatever happened
    ensures !running && 0 in online ==> !f.running
    // a failed read of the outbox changes nothing
    ensures !running && 0 in online && faults.scan ==>
      f == Flush(false, false, store, [], [], None, [])
    // otherwise the snapshot is the scan of the outbox, and it was drained
    ensures !running && 0 in online && !faults.scan ==>
      IsScan(store, f.snapshot) && Drained(f, store, f.snapshot, h, w, online, faults)
    // the pass reports success exactly when it had work and nothing failed
    ensures f.ok <==> !running && 0 in online && !faults.scan && |f.snapshot| > 0 && f.failedAt.None?
    ensures f.ok <==>
      !running && 0 in online && !faults.scan && |f.snapshot| > 0 && AllDelivered(f.attempted, f.snapshot, h, w, faults)
  {
    if running || 0 !in online {
      return Flush(false, running, store, [], [], None, []);
    }
    var scan := GetAll(store, faults.scan);
    if scan.Err? {
      return Flush(false, false, store, [], [], None, []);
    }
    ScanKeyed(store, scan.value);
    f := Drain(store, scan.value, h, w, online, faults);
  }
}

=== FILE: facade.dfy ===
/** `queueOrSendNow(item, callbacks)` (queue.js:243-271), the entry point the
    form calls on submit.

    It completes the item in place: a falsy `submission_uuid` gets a fresh
    version-4 UUID and a falsy `created_at` gets the clock reading `now`. If
    `navigator.onLine` says so, it sends the item straight away and resolves
    `{sent: true, queued: false}` on success; any failure falls back to
    queueing. Offline, it queues directly. Queueing is `putItem`, which resolves
    `{sent: false, queued: true}` or rejects with the store's error. The
    callbacks run inside `try`/`catch` and cannot change the outcome, so they
    are left out. POSTs are numbered from 0; `putNow` is the clock reading
    `putItem` takes. */
module Facade {
  import opened Results
  import opened Js
  import opened Outbox
  import opened Transport
  import opened Submission
  import opened Sync
  import opened Uuid

  datatype Report = Report(sent: bool, queued: bool)

  /** The promise's outcome, the completed item, the store afterwards and
      every POST made. */
  datatype Handoff = Handoff(result: Result<Report, StoreError>, item: Item, store: Store, calls: seq<Request>)

  /** The item after the in-place completion of queue.js:246-250. */
  function Complete(it: Item, d: seq<Nibble>, now: int): Item
    requires |d| == PlaceholderCount
  {
    var uuid := if Truthy(it.submissionUuid) then it.submissionUuid else Str(Generate(d));
    var created := if Truthy(it.createdAt) then it.createdAt else Num(now);
    it.(submissionUuid := uuid, createdAt := created)
  }

  /** Only the two essential fields change; a falsy `submission_uuid` becomes
      a version-4 UUID, so every completed item has a string or its own key. */
  lemma CompleteFields(it: Item, d: seq<Nibble>, now: int)
    requires |d| == PlaceholderCount
    ensures var c := Complete(it, d, now);
      && c.(submissionUuid := it.submissionUuid, createdAt := it.createdAt) == it
      && (Truthy(it.submissionUuid) ==> c.submissionUuid == it.submissionUuid)
      && (!Truthy(it.submissionUuid) ==> c.submissionUuid.Str? && IsV4(c.submissionUuid.s))
      && (Truthy(it.createdAt) ==> c.createdAt == it.createdAt)
      && (!Truthy(it.createdAt) ==> c.createdAt == Num(now))
  {
    if !Truthy(it.submissionUuid) {
      GenerateShape(d);
    }
  }

  /** `putItem(item).then(… {sent: false, queued: true})`. */
  function Enqueue(store: Store, it: Item, putNow: int, aborts: bool, calls: seq<Request>): Handoff {
    match Put(store, it, putNow, aborts)
    case Ok(s) => Handoff(Ok(Report(false, true)), it, s, calls)
    case Err(e) => Handoff(Err(e), it, store, calls)
  }

  /** What `queueOrSendNow` does with the completed item (queue.js:252-270). */
  function Dispatch(store: Store, item: Item, putNow: int, onLine: bool, h: Host, w: Wire, aborts: bool): (r: Handoff)
    ensures r.item == item
    // exactly one of sent and queued on success
    ensures r.result.Ok? ==> r.result.value.sent != r.result.value.queued
    // sent exactly when online and sendItem succeeded
    ensures (r.result.Ok? && r.result.value.sent) <==> onLine && SendItem(item, h, w, 0).result.Ok?
    // offline, nothing goes on the wire
    ensures !onLine ==> r.calls == []
  {
    if onLine then
      var o := SendItem(item, h, w, 0);
      if o.result.Ok? then Handoff(Ok(Report(true, false)), item, store, o.calls)
      else Enqueue(store, item, putNow, aborts, o.calls)
    else Enqueue(store, item, putNow, aborts, [])
  }

  /** Nothing is lost, first half: a call that resolves with `sent` delivered
      the item, confirmed by both POSTs, and left the outbox untouched. */
  lemma DispatchDelivered(store: Store, item: Item, putNow: int, onLine: bool, h: Host, w: Wire, aborts: bool)
    ensures var r := Dispatch(store, item, putNow, onLine, h, w, aborts);
      r.result.Ok? && r.result.value.sent ==>
        r.store == store && Confirmed(r.calls, w, item.submissionUuid)
  {
    var o := SendItem(item, h, w, 0);
    if onLine && o.result.Ok? {
      SendItemConfirmed([], item, h, w);
      assert [] + o.calls == o.calls;
    }
  }

  /** Nothing is lost, second half: a call that resolves with `queued` stored
      the item under its key and kept every other record. */
  lemma DispatchQueued(store: Store, item: Item, putNow: int, onLine: bool, h: Host, w: Wire, aborts: bool)
    ensures var r := Dispatch(store, item, putNow, onLine, h, w, aborts);
      r.result.Ok? && r.result.value.queued ==>
        && PrimaryKey(item).Some?
        && r.store.Keys == store.Keys + {PrimaryKey(item).value}
        && r.store[PrimaryKey(item).value].(createdAt := item.createdAt) == item
        && (forall k :: k in store && Some(k) != PrimaryKey(item) ==> r.store[k] == store[k])
  {
  }

  /** The call rejects exactly when the item was not sent and `putItem`
      failed, and then the outbox is unchanged. */
  lemma DispatchErrors(store: Store, item: Item, putNow: int, onLine: bool, h: Host, w: Wire, aborts: bool)
    ensures var r := Dispatch(store, item, putNow, onLine, h, w, aborts);
      r.result.Err? <==> !(onLine && SendItem(item, h, w, 0).result.Ok?) && (aborts || PrimaryKey(item).None?)
    ensures var r := Dispatch(store, item, putNow, onLine, h, w, aborts);
      r.result.Err? ==> r.store == store
  {
  }

  /** `queueOrSendNow(item)` (queue.js:243-271): the item leaves completed,
      and the outcome is the one `Dispatch` promises for the completed item. */
  function QueueOrSendNow(store: Store, it: Item, d: seq<Nibble>, now: int, putNow: int,
                          onLine: bool, h: Host, w: Wire, aborts: bool): (r: Handoff)
    requires |d| == PlaceholderCount
    // only the two essential fields change, and only when falsy
    ensures r.item.(submissionUuid := it.submissionUuid, createdAt := it.createdAt) == it
    ensures Truthy(it.submissionUuid) ==> r.item.submissionUuid == it.submissionUuid
    ensures !Truthy(it.submissionUuid) ==> r.item.submissionUuid.Str? && IsV4(r.item.submissionUuid.s)
    ensures Truthy(it.createdAt) ==> r.item.createdAt == it.createdAt
    ensures !Truthy(it.createdAt) ==> r.item.createdAt == Num(now)
    // a success is sent or queued, never both; sent exactly when online and delivered
    ensures r.result.Ok? ==> r.result.value.sent != r.result.value.queued
    ensures (r.result.Ok? && r.result.value.sent) <==> onLine && SendItem(r.item, h, w, 0).result.Ok?
    ensures !onLine ==> r.calls == []
    // a rejection leaves the outbox as it was
    ensures r.result.Err? ==> r.store == store
    // nothing is lost: a sent item was confirmed by the server, a queued one is in the outbox
    ensures r.result.Ok? && r.result.value.sent ==>
      r.store == store && Confirmed(r.calls, w, r.item.submissionUuid)
    ensures r.result.Ok? && r.result.value.queued ==>
      && PrimaryKey(r.item).Some?
      && r.store.Keys == store.Keys + {PrimaryKey(r.item).value}
      && r.store[PrimaryKey(r.item).value].(createdAt := r.item.createdAt) == r.item
  {
    CompleteFields(it, d, now);
    var item := Complete(it, d, now);
    DispatchErrors(store, item, putNow, onLine, h, w, aborts);
    DispatchDelivered(store, item, putNow, onLine, h, w, aborts);
    DispatchQueued(store, item, putNow, onLine, h, w, aborts);
    Dispatch(store, item, putNow, onLine, h, w, aborts)
  }

  /** An item without its own `submission_uuid` leaves with a fresh
      version-4 UUID as its key, so it can only fail by an aborted
      transaction; the other fields are as the caller gave them. */
  lemma QueueOrSendNowKey(store: Store, it: Item, d: seq<Nibble>, now: int, putNow: int,
                          onLine: bool, h: Host, w: Wire, aborts: bool)
    requires |d| == PlaceholderCount
    requires !Truthy(it.submissionUuid)
    ensures var r := QueueOrSendNow(store, it, d, now, putNow, onLine, h, w, aborts);
      && r.item.submissionUuid == Str(Generate(d))
      && IsV4(Generate(d))
      && (r.result.Err? ==> r.result.error == TransactionError)
  {
    var item := Complete(it, d, now);
    GenerateShape(d);
    DispatchErrors(store, item, putNow, onLine, h, w, aborts);
  }
}

=== FILE: form.dfy ===
/** The `application/x-www-form-urlencoded` request body built by `encodeForm`
    (queue.js:82-89): one `name=value` segment per own field of the data object,
    in insertion order, both halves passed through `encodeURIComponent`, null and
    undefined values sent as the empty string, the segments joined by `&`. */
module Form {
  import opened Results
  import opened Js
  import opened Uri

  /** One own enumerable property of a request's data object. */
  datatype Field = Field(name: string, value: Value)

  /** The text a field value is sent as: '' for null and undefined, `String(v)` otherwise. */
  function FormText(v: Value): (t: string)
    ensures Nullish(v) ==> t == ""
    ensures !Nullish(v) ==> t == ToString(v)
  {
    if Nullish(v) then "" else ToString(v)
  }

  function Segment(f: Field): string {
    EncodeURIComponent(f.name) + "=" + EncodeURIComponent(FormText(f.value))
  }

  function Segments(fs: seq<Field>): (r: seq<string>)
    ensures |r| == |fs|
    ensures forall i :: 0 <= i < |fs| ==> r[i] == Segment(fs[i])
  {
    if |fs| == 0 then [] else [Segment(fs[0])] + Segments(fs[1..])
  }

  /** `Array.prototype.join` with a one-character separator. */
  function Join(parts: seq<string>, sep: char): string
  {
    if |parts| == 0 then ""
    else if |parts| == 1 then parts[0]
    else parts[0] + [sep] + Join(parts[1..], sep)
  }

  /** `String.prototype.split` with a one-character separator; the result is never empty. */
  function Split(s: string, sep: char): (r: seq<string>)
    ensures |r| >= 1
    ensures forall i, j :: 0 <= i < |r| && 0 <= j < |r[i]| ==> r[i][j] != sep
  {
    if |s| == 0 then [""]
    else
      var rest := Split(s[1..], sep);
      if s[0] == sep then [""] + rest else [[s[0]] + rest[0]] + rest[1..]
  }

  /** `encodeForm(data)`: the body is empty exactly when there are no fields,
      since every segment holds at least its `=`. */
  function EncodeForm(fs: seq<Field>): (r: string)
    ensures |r| == 0 <==> |fs| == 0
  {
    var segs := Segments(fs);
    if |fs| == 0 then "" else
      assert segs[0] == Segment(fs[0]) && |Segment(fs[0])| > 0;
      JoinLength(segs, '&');
      Join(segs, '&')
  }

  /** A join is at least as long as its first part. */
  lemma JoinLength(parts: seq<string>, sep: char)
    requires |parts| > 0
    ensures |Join(parts, sep)| >= |parts[0]|
  {
  }

  predicate Free(s: string, c: char) {
    forall i :: 0 <= i < |s| ==> s[i] != c
  }

  lemma {:induction false} SplitFree(s: string, sep: char)
    requires Free(s, sep)
    ensures Split(s, sep) == [s]
  {
    if |s| > 0 {
      SplitFree(s[1..], sep);
      assert [s[0]] + s[1..] == s;
    }
  }

  lemma {:induction false} SplitAfter(a: string, sep: char, b: string)
    requires Free(a, sep)
    ensures Split(a + [sep] + b, sep) == [a] + Split(b, sep)
  {
    if |a| == 0 {
      assert (a + [sep] + b)[1..] == b;
    } else {
      SplitAfter(a[1..], sep, b);
      assert (a + [sep] + b)[1..] == a[1..] + [sep] + b;
      assert [a[0]] + a[1..] == a;
    }
  }

  /** Splitting a join recovers the parts when no part contains the separator. */
  lemma {:induction false} SplitJoin(parts: seq<string>, sep: char)
    requires |parts| >= 1
    requires forall i :: 0 <= i < |parts| ==> Free(parts[i], sep)
    ensures Split(Join(parts, sep), sep) == parts
  {
    if |parts| == 1 {
      SplitFree(parts[0], sep);
    } else {
      SplitJoin(parts[1..], sep);
      SplitAfter(parts[0], sep, Join(parts[1..], sep));
      assert [parts[0]] + parts[1..] == parts;
    }
  }

  /** Joining a split gives the original string back. */
  lemma {:induction false} JoinSplit(s: string, sep: char)
    ensures Join(Split(s, sep), sep) == s
  {
    if |s| > 0 {
      JoinSplit(s[1..], sep);
      var rest := Split(s[1..], sep);
      if s[0] == sep {
        assert Join(Split(s, sep), sep) == "" + [sep] + Join(rest, sep);
        assert [s[0]] + s[1..] == s;
      } else {
        var r := Split(s, sep);
        assert r == [[s[0]] + rest[0]] + rest[1..];
        if |rest| == 1 {
          assert [s[0]] + s[1..] == s;
        } else {
          assert rest == [rest[0]] + rest[1..];
          assert Join(rest, sep) == rest[0] + [sep] + Join(rest[1..], sep);
          assert r[1..] == rest[1..];
          assert [s[0]] + s[1..] == s;
        }
      }
    }
  }

  /** The text before and after the first `=` of a segment (the whole
      segment and the empty string when it has none). */
  function SplitPair(seg: string): (p: (string, string))
    ensures Free(p.0, '=')
  {
    if |seg| == 0 then ("", "")
    else if seg[0] == '=' then ("", seg[1..])
    else
      var rest := SplitPair(seg[1..]);
      ([seg[0]] + rest.0, rest.1)
  }

  lemma {:induction false} SplitPairAt(a: string, b: string)
    requires Free(a, '=')
    ensures SplitPair(a + "=" + b) == (a, b)
  {
    if |a| == 0 {
      assert (a + "=" + b)[1..] == b;
    } else {
      SplitPairAt(a[1..], b);
      assert (a + "=" + b)[1..] == a[1..] + "=" + b;
      assert [a[0]] + a[1..] == a;
    }
  }

  /** A request body read back the way a form decoder does: split on `&`,
      split each segment on its first `=`, percent-decode both halves. The
      empty body carries no fields. `None` when some escape is malformed. */
  function DecodeForm(body: string): Option<seq<(string, string)>> {
    if body == "" then Some([]) else DecodeSegments(Split(body, '&'))
  }

  function DecodeSegments(segs: seq<string>): Option<seq<(string, string)>> {
    if |segs| == 0 then Some([])
    else
      var p := SplitPair(segs[0]);
      match (DecodeURIComponent(p.0), DecodeURIComponent(p.1), DecodeSegments(segs[1..]))
      case (Some(k), Some(v), Some(rest)) => Some([(k, v)] + rest)
      case _ => None
  }

  /** The name and the sent text of each field, in order. */
  function Sent(fs: seq<Field>): (r: seq<(string, string)>)
    ensures |r| == |fs|
  {
    if |fs| == 0 then [] else [(fs[0].name, FormText(fs[0].value))] + Sent(fs[1..])
  }

  /** Every segment of the body is `enc(name)=enc(text)`: splitting the body on `&`
      and each segment on its first `=` gives back the encoded halves, one per
      field, in order. */
  lemma EncodeFormSegments(fs: seq<Field>)
    requires |fs| >= 1
    ensures Split(EncodeForm(fs), '&') == Segments(fs)
    ensures forall i :: 0 <= i < |fs| ==>
      SplitPair(Segments(fs)[i]) == (EncodeURIComponent(fs[i].name), EncodeURIComponent(FormText(fs[i].value)))
  {
    var segs := Segments(fs);
    forall i | 0 <= i < |segs|
      ensures Free(segs[i], '&')
    {
      var a := EncodeURIComponent(fs[i].name);
      var b := EncodeURIComponent(FormText(fs[i].value));
      assert segs[i] == a + "=" + b;
      forall j | 0 <= j < |segs[i]| ensures segs[i][j] != '&' {
        if j < |a| { assert segs[i][j] == a[j]; }
        else if j > |a| { assert segs[i][j] == b[j - |a| - 1]; }
      }
    }
    SplitJoin(segs, '&');
    forall i | 0 <= i < |fs|
      ensures SplitPair(segs[i]) == (EncodeURIComponent(fs[i].name), EncodeURIComponent(FormText(fs[i].value)))
    {
      SplitPairAt(EncodeURIComponent(fs[i].name), EncodeURIComponent(FormText(fs[i].value)));
    }
  }

  lemma {:induction false} DecodeSegmentsOfFields(fs: seq<Field>)
    ensures DecodeSegments(Segments(fs)) == Some(Sent(fs))
  {
    if |fs| > 0 {
      var a := EncodeURIComponent(fs[0].name);
      var b := EncodeURIComponent(FormText(fs[0].value));
      SplitPairAt(a, b);
      DecodeEncode(fs[0].name);
      DecodeEncode(FormText(fs[0].value));
      DecodeSegmentsOfFields(fs[1..]);
      assert Segments(fs)[1..] == Segments(fs[1..]);
    }
  }

  /** Round trip of the request body: decoding `encodeForm(data)` gives each
      field's name and sent text, in order. The empty field list gives "". */
  lemma DecodeEncodeForm(fs: seq<Field>)
    ensures fs == [] ==> EncodeForm(fs) == ""
    ensures DecodeForm(EncodeForm(fs)) == Some(Sent(fs))
  {
    if |fs| > 0 {
      EncodeFormSegments(fs);
      DecodeSegmentsOfFields(fs);
    }
  }

  /** The field names of a data object, in order. */
  function Names(fs: seq<Field>): (r: seq<string>)
    ensures |r| == |fs|
    ensures forall i :: 0 <= i < |fs| ==> r[i] == fs[i].name
  {
    if |fs| == 0 then [] else [fs[0].name] + Names(fs[1..])
  }

  /** `data[name]`: the value of the first field called `name`, `undefined` if none. */
  function Lookup(fs: seq<Field>, name: string): Value {
    if |fs| == 0 then Undefined
    else if fs[0].name == name then fs[0].value
    else Lookup(fs[1..], name)
  }

  lemma {:induction false} LookupAt(fs: seq<Field>, i: nat)
    requires i < |fs|
    requires forall j :: 0 <= j < i ==> fs[j].name != fs[i].name
    ensures Lookup(fs, fs[i].name) == fs[i].value
  {
    if i > 0 {
      LookupAt(fs[1..], i - 1);
    }
  }

  /** In a data object whose field names are distinct, each field is found by its name. */
  lemma LookupDistinct(fs: seq<Field>)
    requires forall i, j :: 0 <= i < j < |fs| ==> fs[i].name != fs[j].name
    ensures forall i :: 0 <= i < |fs| ==> Lookup(fs, fs[i].name) == fs[i].value
  {
    forall i | 0 <= i < |fs| ensures Lookup(fs, fs[i].name) == fs[i].value {
      LookupAt(fs, i);
    }
  }
}

=== FILE: js.dfy ===
/** The slice of JavaScript value semantics the outbox relies on: truthiness,
    the `||` operator (which returns an operand, not a boolean), the
    null/undefined test and the string conversion `String(v)`. */
module Js {

  /** A primitive JavaScript value. Numbers are restricted to integers. */
  datatype Value = Undefined | Null | Bool(b: bool) | Num(n: int) | Str(s: string)

  /** ToBoolean (section 9.2 of ECMAScript 5.1), without NaN. */
  predicate Truthy(v: Value) {
    match v
    case Undefined => false
    case Null => false
    case Bool(b) => b
    case Num(n) => n != 0
    case Str(s) => s != ""
  }

  /** `v === null || v === undefined` */
  predicate Nullish(v: Value) {
    v.Undefined? || v.Null?
  }

  /** The value of `a || b`: the first operand when it is truthy, the second otherwise. */
  function Or(a: Value, b: Value): (r: Value)
    ensures Truthy(a) ==> r == a
    ensures !Truthy(a) ==> r == b
    ensures Truthy(r) <==> Truthy(a) || Truthy(b)
  {
    if Truthy(a) then a else b
  }

  function DigitChar(d: nat): (c: char)
    requires d < 10
    ensures '0' <= c <= '9'
  {
    "0123456789"[d]
  }

  /** Decimal digits of a natural number, most significant first. */
  function Decimal(n: nat): (r: string)
    ensures |r| > 0
    ensures forall i :: 0 <= i < |r| ==> '0' <= r[i] <= '9'
    decreases n
  {
    if n < 10 then [DigitChar(n)] else Decimal(n / 10) + [DigitChar(n % 10)]
  }

  /** Value of a non-empty decimal digit string. */
  function DecimalValue(s: string): nat
    requires forall i :: 0 <= i < |s| ==> '0' <= s[i] <= '9'
  {
    if |s| == 0 then 0 else 10 * DecimalValue(s[..|s| - 1]) + (s[|s| - 1] as int - '0' as int)
  }

  /** `Decimal` is injective: reading the digits back gives the number. */
  lemma {:induction false} DecimalRoundTrip(n: nat)
    ensures DecimalValue(Decimal(n)) == n
    decreases n
  {
    var r := Decimal(n);
    if n >= 10 {
      DecimalRoundTrip(n / 10);
      assert r[..|r| - 1] == Decimal(n / 10);
    }
  }

  /** Number::toString for an integer of magnitude below 10^21 (the range in which
      ECMAScript prints plain decimal notation). */
  function NumberText(n: int): (r: string)
    ensures |r| > 0
    ensures n < 0 <==> r[0] == '-'
  {
    if n < 0 then "-" + Decimal(-n) else Decimal(n)
  }

  /** ToString (section 9.8 of ECMAScript 5.1). */
  function ToString(v: Value): (r: string)
    ensures v.Str? ==> r == v.s
    ensures v.Bool? ==> r == (if v.b then "true" else "false")
  {
    match v
    case Undefined => "undefined"
    case Null => "null"
    case Bool(b) => if b then "true" else "false"
    case Num(n) => NumberText(n)
    case Str(s) => s
  }
}

=== FILE: keys.dfy ===
/** IndexedDB keys as far as the outbox uses them (section 2.6 and the key
    comparison algorithm of the W3C Indexed Database API): a number or a
    string. Every number sorts before every string; numbers compare by value,
    strings by code point, lexicographically. */
module Keys {
  import opened Results
  import opened Js

  datatype Key = KNum(n: int) | KStr(s: string)

  /** The key a value denotes, if it is a valid key; null, undefined and the
      booleans are not. */
  function KeyOf(v: Value): (k: Option<Key>)
    ensures k.Some? <==> v.Num? || v.Str?
  {
    match v
    case Num(n) => Some(KNum(n))
    case Str(s) => Some(KStr(s))
    case _ => None
  }

  /** Strict lexicographic order on strings. */
  predicate StrLess(a: string, b: string) {
    if |a| == 0 then |b| > 0
    else if |b| == 0 then false
    else a[0] < b[0] || (a[0] == b[0] && StrLess(a[1..], b[1..]))
  }

  predicate KeyLess(a: Key, b: Key) {
    match (a, b)
    case (KNum(x), KNum(y)) => x < y
    case (KNum(_), KStr(_)) => true
    case (KStr(_), KNum(_)) => false
    case (KStr(x), KStr(y)) => StrLess(x, y)
  }

  lemma {:induction false} StrLessIrreflexive(a: string)
    ensures !StrLess(a, a)
  {
    if |a| > 0 { StrLessIrreflexive(a[1..]); }
  }

  lemma {:induction false} StrLessTransitive(a: string, b: string, c: string)
    requires StrLess(a, b) && StrLess(b, c)
    ensures StrLess(a, c)
  {
    if |a| > 0 && |b| > 0 && |c| > 0 && a[0] == b[0] == c[0] {
      StrLessTransitive(a[1..], b[1..], c[1..]);
    }
  }

  lemma {:induction false} StrLessTotal(a: string, b: string)
    requires a != b
    ensures StrLess(a, b) || StrLess(b, a)
  {
    if |a| > 0 && |b| > 0 && a[0] == b[0] {
      assert a == [a[0]] + a[1..] && b == [b[0]] + b[1..];
      StrLessTotal(a[1..], b[1..]);
    }
  }

  /** KeyLess is a strict total order on keys. */
  lemma KeyLessIrreflexive(a: Key)
    ensures !KeyLess(a, a)
  {
    if a.KStr? { StrLessIrreflexive(a.s); }
  }

  lemma KeyLessTransitive(a: Key, b: Key, c: Key)
    requires KeyLess(a, b) && KeyLess(b, c)
    ensures KeyLess(a, c)
  {
    if a.KStr? && b.KStr? && c.KStr? { StrLessTransitive(a.s, b.s, c.s); }
  }

  lemma KeyLessTotal(a: Key, b: Key)
    requires a != b
    ensures KeyLess(a, b) || KeyLess(b, a)
  {
    if a.KStr? && b.KStr? { StrLessTotal(a.s, b.s); }
  }
}

=== FILE: outbox.dfy ===
/** The outbox object store (queue.js:14-79): records keyed by their
    `submission_uuid`, with a non-unique index on `created_at`. The database
    connection is abstracted away: the store is a finite map, each operation is
    one atomic transaction, and whether that transaction aborts is an input. */
module Outbox {
  import opened Results
  import opened Js
  import opened Keys

  /** A queued submission, as the form page hands it over; a property the page
      did not set reads as `undefined`. */
  datatype Item = Item(
    submissionUuid: Value,
    createdAt: Value,
    webappUrl: Value,
    usuario: Value,
    lote: Value,
    loteCod: Value,
    codAtividade: Value,
    atividade: Value,
    appVersion: Value,
    lat: Value,
    long: Value,
    accuracyM: Value,
    fotoBase64: Value,
    obs: Value,
    chuva: Value,
    fakeGps: Value,
    gpsFlag: Value)

  /** The primary key of a record (keyPath `submission_uuid`). */
  function PrimaryKey(it: Item): Option<Key> {
    KeyOf(it.submissionUuid)
  }

  /** The key of a record in the `created_at` index; a record whose `created_at`
      is not a valid key is stored but has no entry in the index. */
  function IndexKey(it: Item): Option<Key> {
    KeyOf(it.createdAt)
  }

  predicate Indexed(it: Item) {
    IndexKey(it).Some?
  }

  /** Every record is filed under the key its own `submission_uuid` denotes. */
  ghost predicate WellKeyed(m: map<Key, Item>) {
    forall k :: k in m ==> PrimaryKey(m[k]) == Some(k)
  }

  type Store = m: map<Key, Item> | WellKeyed(m) witness map[]

  datatype StoreError =
    | DataError        // the record's `submission_uuid` is not a valid key
    | TransactionError // the transaction aborted

  /** The record as `putItem` stores it: `created_at` set to the clock reading
      `now` when it was falsy (queue.js:46). */
  function Stamp(it: Item, now: int): Item {
    if Truthy(it.createdAt) then it else it.(createdAt := Num(now))
  }

  /** `putItem(item)` (queue.js:39-50): an upsert under the record's key. */
  function Put(store: Store, it: Item, now: int, aborts: bool): (r: Result<Store, StoreError>)
    ensures r.Ok? <==> PrimaryKey(it).Some? && !aborts
    ensures PrimaryKey(it).None? ==> r == Err(DataError)
    ensures PrimaryKey(it).Some? && aborts ==> r == Err(TransactionError)
    ensures r.Ok? ==> r.value.Keys == store.Keys + {PrimaryKey(it).value}
    ensures r.Ok? ==> forall k :: k in store && Some(k) != PrimaryKey(it) ==> r.value[k] == store[k]
    ensures r.Ok? ==> var s := r.value[PrimaryKey(it).value];
      && s.(createdAt := it.createdAt) == it
      && (Truthy(it.createdAt) ==> s.createdAt == it.createdAt)
      && (!Truthy(it.createdAt) ==> s.createdAt == Num(now))
  {
    var s := Stamp(it, now);
    match PrimaryKey(s)
    case None => Err(DataError)
    case Some(k) => if aborts then Err(TransactionError) else Ok(store[k := s])
  }

  /** `del(id)` (queue.js:70-79): removes the record under `k`, if any. */
  function Del(store: Store, k: Key, aborts: bool): (r: Result<Store, StoreError>)
    ensures r.Ok? <==> !aborts
    ensures r.Ok? ==> r.value.Keys == store.Keys - {k}
    ensures r.Ok? ==> forall j :: j in r.value ==> r.value[j] == store[j]
  {
    if aborts then Err(TransactionError) else Ok(store - {k})
  }

  /** Deleting an absent key succeeds and changes nothing; so a second delete
      of the same key is a no-op. */
  lemma DelIdempotent(store: Store, k: Key)
    ensures k !in store ==> Del(store, k, false) == Ok(store)
    ensures Del(store, k, false).Ok? && Del(Del(store, k, false).value, k, false) == Del(store, k, false)
  {
    assert k !in store ==> store - {k} == store;
    assert (store - {k}) - {k} == store - {k};
  }

  /** A second put of the same record replaces the first: one record per key. */
  lemma PutReplaces(store: Store, a: Item, b: Item, now: int, now': int)
    requires PrimaryKey(a).Some? && PrimaryKey(a) == PrimaryKey(b)
    ensures var s1 := Put(store, a, now, false).value;
      Put(s1, b, now', false).value == Put(store, b, now', false).value
  {
  }

  /* ---------------- scanning the `created_at` index ---------------- */

  predicate OptKeyLess(a: Option<Key>, b: Option<Key>) {
    match (a, b)
    case (None, Some(_)) => true
    case (Some(x), Some(y)) => KeyLess(x, y)
    case _ => false
  }

  /** Cursor order of the index: by `created_at` key, ties by primary key. */
  predicate ScanBefore(a: Item, b: Item) {
    || OptKeyLess(IndexKey(a), IndexKey(b))
    || (IndexKey(a) == IndexKey(b) && OptKeyLess(PrimaryKey(a), PrimaryKey(b)))
  }

  lemma OptKeyLessTotal(a: Option<Key>, b: Option<Key>)
    requires a != b
    ensures OptKeyLess(a, b) || OptKeyLess(b, a)
  {
    if a.Some? && b.Some? { KeyLessTotal(a.value, b.value); }
  }

  lemma OptKeyLessTransitive(a: Option<Key>, b: Option<Key>, c: Option<Key>)
    requires OptKeyLess(a, b) && OptKeyLess(b, c)
    ensures OptKeyLess(a, c)
  {
    if a.Some? { KeyLessTransitive(a.value, b.value, c.value); }
  }

  lemma OptKeyLessIrreflexive(a: Option<Key>)
    ensures !OptKeyLess(a, a)
  {
    if a.Some? { KeyLessIrreflexive(a.value); }
  }

  /** The cursor order is a strict total order on records with distinct keys. */
  lemma ScanBeforeStrictTotal(a: Item, b: Item, c: Item)
    ensures !ScanBefore(a, a)
    ensures ScanBefore(a, b) && ScanBefore(b, c) ==> ScanBefore(a, c)
    ensures PrimaryKey(a) != PrimaryKey(b) ==> ScanBefore(a, b) || ScanBefore(b, a)
  {
    OptKeyLessIrreflexive(IndexKey(a));
    OptKeyLessIrreflexive(PrimaryKey(a));
    if ScanBefore(a, b) && ScanBefore(b, c) {
      if OptKeyLess(IndexKey(a), IndexKey(b)) && OptKeyLess(IndexKey(b), IndexKey(c)) {
        OptKeyLessTransitive(IndexKey(a), IndexKey(b), IndexKey(c));
      } else if IndexKey(a) == IndexKey(b) == IndexKey(c) {
        OptKeyLessTransitive(PrimaryKey(a), PrimaryKey(b), PrimaryKey(c));
      }
    }
    if PrimaryKey(a) != PrimaryKey(b) {
      if IndexKey(a) != IndexKey(b) {
        OptKeyLessTotal(IndexKey(a), IndexKey(b));
      } else {
        OptKeyLessTotal(PrimaryKey(a), PrimaryKey(b));
      }
    }
  }

  predicate Sorted(s: seq<Item>) {
    forall i, j :: 0 <= i < j < |s| ==> ScanBefore(s[i], s[j])
  }

  /** The primary keys of a sequence of records. */
  function KeysOf(s: seq<Item>): set<Key> {
    if |s| == 0 then {}
    else (if PrimaryKey(s[0]).Some? then {PrimaryKey(s[0]).value} else {}) + KeysOf(s[1..])
  }

  lemma {:induction false} KeysOfMember(s: seq<Item>, k: Key)
    ensures k in KeysOf(s) <==> exists i :: 0 <= i < |s| && PrimaryKey(s[i]) == Some(k)
  {
    if |s| > 0 {
      KeysOfMember(s[1..], k);
      if k in KeysOf(s[1..]) {
        var i :| 0 <= i < |s[1..]| && PrimaryKey(s[1..][i]) == Some(k);
        assert PrimaryKey(s[i + 1]) == Some(k);
      }
      if exists i :: 0 <= i < |s| && PrimaryKey(s[i]) == Some(k) {
        var i :| 0 <= i < |s| && PrimaryKey(s[i]) == Some(k);
        if i > 0 { assert PrimaryKey(s[1..][i - 1]) == Some(k); }
      }
    }
  }

  /** `s` is what a full cursor walk over the `created_at` index of `store`
      yields: each indexed record once, nothing else, in cursor order. */
  ghost predicate IsScan(store: Store, s: seq<Item>) {
    && (forall i :: 0 <= i < |s| ==>
          Indexed(s[i]) && PrimaryKey(s[i]).Some? && PrimaryKey(s[i]).value in store
          && store[PrimaryKey(s[i]).value] == s[i])
    && (forall k :: k in store && Indexed(store[k]) ==> k in KeysOf(s))
    && Sorted(s)
  }

  /** Inserts a record into a cursor-ordered sequence of records with other keys. */
  function Insert(s: seq<Item>, x: Item): (r: seq<Item>)
    requires Sorted(s)
    requires forall i :: 0 <= i < |s| ==> PrimaryKey(s[i]) != PrimaryKey(x)
    ensures Sorted(r)
    ensures |r| == |s| + 1
    ensures forall y :: y in r <==> y in s || y == x
    ensures KeysOf(r) == KeysOf(s) + KeysOf([x])
  {
    if |s| == 0 then [x]
    else if ScanBefore(x, s[0]) then
      assert forall j :: 0 < j < |s| ==> ScanBefore(x, s[j]) by {
        forall j | 0 < j < |s| ensures ScanBefore(x, s[j]) {
          ScanBeforeStrictTotal(x, s[0], s[j]);
        }
      }
      [x] + s
    else
      ScanBeforeStrictTotal(s[0], x, x);
      var t := Insert(s[1..], x);
      assert forall j :: 0 <= j < |t| ==> ScanBefore(s[0], t[j]) by {
        forall j | 0 <= j < |t| ensures ScanBefore(s[0], t[j]) {
          assert t[j] in s[1..] || t[j] == x;
        }
      }
      [s[0]] + t
  }

  /** `getAll()` (queue.js:52-68): every record reachable through the
      `created_at` index, in cursor order, or the transaction error. */
  method GetAll(store: Store, aborts: bool) returns (r: Result<seq<Item>, StoreError>)
    ensures r.Err? <==> aborts
    ensures r.Ok? ==> IsScan(store, r.value)
  {
    if aborts {
      return Err(TransactionError);
    }
    var out: seq<Item> := [];
    var rest := store.Keys;
    while rest != {}
      invariant rest <= store.Keys
      invariant Sorted(out)
      invariant forall i :: 0 <= i < |out| ==>
        && Indexed(out[i]) && PrimaryKey(out[i]).Some?
        && PrimaryKey(out[i]).value in store.Keys - rest
        && store[PrimaryKey(out[i]).value] == out[i]
      invariant forall k :: k in store.Keys - rest && Indexed(store[k]) ==> k in KeysOf(out)
      decreases rest
    {
      var k :| k in rest;
      if Indexed(store[k]) {
        var out0 := out;
        out := Insert(out, store[k]);
        assert PrimaryKey(store[k]) == Some(k);
        forall i | 0 <= i < |out|
          ensures Indexed(out[i]) && PrimaryKey(out[i]).Some?
          ensures PrimaryKey(out[i]).value in store.Keys - (rest - {k})
          ensures store[PrimaryKey(out[i]).value] == out[i]
        {
          if out[i] != store[k] {
            assert out[i] in out0;
            var j :| 0 <= j < |out0| && out0[j] == out[i];
          }
        }
      }
      rest := rest - {k};
    }
    return Ok(out);
  }

  /** Two strictly sorted sequences with the same elements are equal. */
  lemma {:induction false} SortedUnique(a: seq<Item>, b: seq<Item>)
    requires Sorted(a) && Sorted(b)
    requires forall x :: x in a <==> x in b
    ensures a == b
  {
    if |a| > 0 { assert a[0] in a; }
    if |b| > 0 { assert b[0] in b; }
    if |a| > 0 && |b| > 0 {
      if a[0] != b[0] {
        assert b[0] in a && a[0] in b;
        var i :| 0 <= i < |a| && a[i] == b[0];
        var j :| 0 <= j < |b| && b[j] == a[0];
        ScanBeforeStrictTotal(a[0], b[0], a[0]);
        assert false;
      }
      forall x ensures x in a[1..] <==> x in b[1..] {
        ScanBeforeStrictTotal(a[0], a[0], a[0]);
        if x in a[1..] {
          var i :| 1 <= i < |a| && a[i] == x;
          assert x != a[0];
          assert x in b;
        }
        if x in b[1..] {
          var j :| 1 <= j < |b| && b[j] == x;
          assert x != b[0];
          assert x in a;
        }
      }
      SortedUnique(a[1..], b[1..]);
      assert a == [a[0]] + a[1..] && b == [b[0]] + b[1..];
    }
  }

  /** The scan of a store is determined by the store: every correct cursor walk
      gives the same sequence. */
  lemma ScanUnique(store: Store, a: seq<Item>, b: seq<Item>)
    requires IsScan(store, a) && IsScan(store, b)
    ensures a == b
  {
    forall x ensures x in a <==> x in b {
      if x in a {
        var i :| 0 <= i < |a| && a[i] == x;
        ScanHas(store, b, PrimaryKey(x).value);
      }
      if x in b {
        var i :| 0 <= i < |b| && b[i] == x;
        ScanHas(store, a, PrimaryKey(x).value);
      }
    }
    SortedUnique(a, b);
  }

  /** A scan holds every indexed record of its store. */
  lemma ScanHas(store: Store, s: seq<Item>, k: Key)
    requires IsScan(store, s)
    requires k in store && Indexed(store[k])
    ensures store[k] in s
  {
    KeysOfMember(s, k);
    var i :| 0 <= i < |s| && PrimaryKey(s[i]) == Some(k);
    assert s[i] == store[k];
  }

  /** Every indexed record occurs exactly once in a scan, and the scan is
      ascending in `created_at`. */
  lemma ScanExactlyOnce(store: Store, s: seq<Item>, k: Key)
    requires IsScan(store, s)
    requires k in store && Indexed(store[k])
    ensures exists i :: 0 <= i < |s| && s[i] == store[k]
    ensures forall i, j :: 0 <= i < |s| && 0 <= j < |s| && s[i] == store[k] && s[j] == store[k] ==> i == j
    ensures forall i, j :: 0 <= i < j < |s| ==> !OptKeyLess(IndexKey(s[j]), IndexKey(s[i]))
  {
    ScanHas(store, s, k);
    forall i, j | 0 <= i < |s| && 0 <= j < |s| && s[i] == store[k] && s[j] == store[k]
      ensures i == j
    {
      ScanBeforeStrictTotal(s[i], s[i], s[i]);
    }
    forall i, j | 0 <= i < j < |s| ensures !OptKeyLess(IndexKey(s[j]), IndexKey(s[i])) {
      OptKeyLessIrreflexive(IndexKey(s[i]));
      if OptKeyLess(IndexKey(s[j]), IndexKey(s[i])) {
        if OptKeyLess(IndexKey(s[i]), IndexKey(s[j])) {
          OptKeyLessTransitive(IndexKey(s[i]), IndexKey(s[j]), IndexKey(s[i]));
        }
      }
    }
  }
}

=== FILE: results.dfy ===
/** Optional values and the success/failure outcome of an asynchronous step
    (a resolved or rejected promise in the modelled program). */
module Results {

  datatype Option<+T> = None | Some(value: T)

  datatype Result<+T, +E> = Ok(value: T) | Err(error: E)
}

=== FILE: submission.dfy ===
/** The two-phase delivery of one outbox item (`sendItem`, queue.js:149-206):
    an `upload_foto` POST carrying the photo, then, only if the server answered
    'OK', a `gravar_linha_lt08` POST writing the row; both carry the item's
    `submission_uuid`. Also the helpers it uses: `safe`, `normChuva`, `getLS`
    and `resolveBaseUrl` (queue.js:124-147). */
module Submission {
  import opened Results
  import opened Js
  import opened Form
  import opened Transport
  import opened Outbox

  /** DEFAULT_WEBAPP_URL (queue.js:7). */
  const DefaultWebappUrl: string :=
    "https://script.google.com/macros/s/AKfycbxBj4HaY5AggfGoRXW8JvDAKFG_SRJ3GWyBsOVG1GIes0Yv5tup8pUGSyhSL2RFFo5f/exec"

  /** What the page offers the engine: `window.WEBAPP_URL` and the contents of
      `localStorage` (a key that is absent or cannot be read is missing). */
  datatype Host = Host(windowUrl: Value, localStorage: map<string, string>)

  /** The network: the response to the k-th POST, and the `toISOString()`
      reading taken just before the k-th POST. */
  datatype Wire = Wire(net: nat -> Response, clock: nat -> string)

  /** `getLS(key)`: the stored string, '' when absent. */
  function GetLS(h: Host, key: string): string {
    if key in h.localStorage then h.localStorage[key] else ""
  }

  /** `safe(v, def)`: `v` unless it is null or undefined, then `def || ''`. */
  function Safe(v: Value, def: Value): (r: Value)
    ensures !Nullish(v) ==> r == v
    ensures Nullish(v) && Truthy(def) ==> r == def
    ensures Nullish(v) && !Truthy(def) ==> r == Str("")
    ensures !Nullish(r)
  {
    if Nullish(v) then Or(def, Str("")) else v
  }

  /** `resolveBaseUrl(item)`: the first truthy of the item's WEBAPP_URL, the
      window's, and the built-in default. */
  function ResolveBaseUrl(it: Item, h: Host): (u: Value)
    ensures Truthy(u)
    ensures u == it.webappUrl || u == h.windowUrl || u == Str(DefaultWebappUrl)
    ensures Truthy(it.webappUrl) ==> u == it.webappUrl
    ensures !Truthy(it.webappUrl) && Truthy(h.windowUrl) ==> u == h.windowUrl
  {
    Or(it.webappUrl, Or(h.windowUrl, Str(DefaultWebappUrl)))
  }

  /** White space and line terminators removed by `String.prototype.trim`
      (sections 7.2 and 7.3 of ECMAScript 5.1). */
  predicate JsSpace(c: char) {
    var n := c as int;
    || n == 0x09 || n == 0x0B || n == 0x0C || n == 0x20 || n == 0xA0 || n == 0xFEFF  // TAB VT FF SP NBSP BOM
    || n == 0x0A || n == 0x0D || n == 0x2028 || n == 0x2029                          // line terminators
    || n == 0x1680 || 0x2000 <= n <= 0x200A || n == 0x202F || n == 0x205F || n == 0x3000  // other Zs
  }

  function TrimStart(s: string): (r: string)
    ensures |r| <= |s|
  {
    if |s| > 0 && JsSpace(s[0]) then TrimStart(s[1..]) else s
  }

  function TrimEnd(s: string): (r: string)
    ensures |r| <= |s|
  {
    if |s| > 0 && JsSpace(s[|s| - 1]) then TrimEnd(s[..|s| - 1]) else s
  }

  /** `s.trim()` */
  function Trim(s: string): (r: string)
    ensures |r| <= |s|
  {
    TrimEnd(TrimStart(s))
  }

  /** `s.toLowerCase()` on the Basic Latin letters. */
  function ToLower(s: string): (r: string)
    ensures |r| == |s|
  {
    if |s| == 0 then ""
    else [if 'A' <= s[0] <= 'Z' then (s[0] as int + 32) as char else s[0]] + ToLower(s[1..])
  }

  /** `normChuva(v)` (queue.js:127-135): 'SIM' or ''. The string tests are
      subsumed by the final truthiness test, so the result is 'SIM' exactly for
      the truthy values. */
  function NormChuva(v: Value): (r: string)
    ensures r == "SIM" || r == ""
    ensures r == "SIM" <==> Truthy(v)
  {
    if v == Bool(true) then "SIM"
    else if v.Str? && (var s := ToLower(Trim(v.s)); s == "sim" || s == "true" || s == "1" || s == "yes") then "SIM"
    else if v == Str("SIM") then "SIM"
    else if Truthy(v) then "SIM"
    else ""
  }

  /** The rain flag for the values that read as "yes". */
  lemma NormChuvaYes()
    ensures NormChuva(Bool(true)) == "SIM" && NormChuva(Str("SIM")) == "SIM"
    ensures NormChuva(Str("sim")) == "SIM" && NormChuva(Str("1")) == "SIM" && NormChuva(Str("yes")) == "SIM"
  {
  }

  /** The rain flag for the falsy values. */
  lemma NormChuvaFalsy()
    ensures NormChuva(Bool(false)) == "" && NormChuva(Str("")) == "" && NormChuva(Undefined) == ""
    ensures NormChuva(Null) == "" && NormChuva(Num(0)) == ""
  {
  }

  /** Strings that read as "no" are truthy, so the final test turns them into 'SIM'. */
  lemma NormChuvaNoIsSim()
    ensures NormChuva(Str("no")) == "SIM" && NormChuva(Str("false")) == "SIM" && NormChuva(Str(" ")) == "SIM"
  {
  }

  /** `item.lote || getLS('EVIDENTE_LOTE_NOME') || ''` (queue.js:155). */
  function LoteNome(it: Item, h: Host): (r: Value)
    ensures Truthy(it.lote) ==> r == it.lote
    ensures !Truthy(it.lote) ==> r == Str(GetLS(h, "EVIDENTE_LOTE_NOME"))
  {
    Or(it.lote, Or(Str(GetLS(h, "EVIDENTE_LOTE_NOME")), Str("")))
  }

  /** `item.lote_cod || getLS('EVIDENTE_LOTE_COD') || ''` (queue.js:156). */
  function LoteCod(it: Item, h: Host): (r: Value)
    ensures Truthy(it.loteCod) ==> r == it.loteCod
    ensures !Truthy(it.loteCod) ==> r == Str(GetLS(h, "EVIDENTE_LOTE_COD"))
  {
    Or(it.loteCod, Or(Str(GetLS(h, "EVIDENTE_LOTE_COD")), Str("")))
  }

  /** Field names of the two requests, as the server expects them. */
  const UploadSchema: seq<string> := ["action", "usuario", "lote", "lote_cod", "cod_atividade", "atividade",
    "app_version", "submission_uuid", "lat", "long", "accuracy_m", "foto_base64"]
  const WriteSchema: seq<string> := ["action", "data_hora", "app_version", "usuario", "cod_atividade",
    "atividade", "foto", "foto_id", "lat", "long", "obs", "chuva", "fake_gps", "gps_flag", "lote",
    "lote_cod", "submission_uuid"]

  predicate DistinctNames(names: seq<string>) {
    forall i, j :: 0 <= i < j < |names| ==> names[i] != names[j]
  }

  lemma UploadSchemaDistinct()
    ensures DistinctNames(UploadSchema)
  {
  }

  /** The position of each name in the write schema. */
  function WritePos(name: string): int {
    if name == "action" then 0 else if name == "data_hora" then 1 else if name == "app_version" then 2
    else if name == "usuario" then 3 else if name == "cod_atividade" then 4 else if name == "atividade" then 5
    else if name == "foto" then 6 else if name == "foto_id" then 7 else if name == "lat" then 8
    else if name == "long" then 9 else if name == "obs" then 10 else if name == "chuva" then 11
    else if name == "fake_gps" then 12 else if name == "gps_flag" then 13 else if name == "lote" then 14
    else if name == "lote_cod" then 15 else if name == "submission_uuid" then 16 else -1
  }

  lemma WriteSchemaDistinct()
    ensures DistinctNames(WriteSchema)
  {
    assert forall i :: 0 <= i < |WriteSchema| ==> WritePos(WriteSchema[i]) == i;
  }

  /** The data object of the upload phase (queue.js:159-171). */
  function UploadFields(it: Item, lote: Value, loteCod: Value): seq<Field>
  {
    [ Field("action", Str("upload_foto")),
      Field("usuario", it.usuario),
      Field("lote", lote),
      Field("lote_cod", loteCod),
      Field("cod_atividade", it.codAtividade),
      Field("atividade", it.atividade),
      Field("app_version", it.appVersion),
      Field("submission_uuid", it.submissionUuid),
      Field("lat", Safe(it.lat, Str(""))),
      Field("long", Safe(it.long, Str(""))),
      Field("accuracy_m", Safe(it.accuracyM, Str(""))),
      Field("foto_base64", it.fotoBase64)]
  }

  /** The upload carries exactly the fields the server expects, in order. */
  lemma UploadFieldsSchema(it: Item, lote: Value, loteCod: Value)
    ensures Names(UploadFields(it, lote, loteCod)) == UploadSchema
  {
  }

  /** What the server reads from the upload: the action, the record's uuid,
      lot and photo, and coordinates that are never null or undefined. */
  lemma UploadFieldsRead(it: Item, lote: Value, loteCod: Value)
    ensures var fs := UploadFields(it, lote, loteCod);
      && Lookup(fs, "action") == Str("upload_foto")
      && Lookup(fs, "submission_uuid") == it.submissionUuid
      && Lookup(fs, "lote") == lote && Lookup(fs, "lote_cod") == loteCod
      && Lookup(fs, "foto_base64") == it.fotoBase64
      && !Nullish(Lookup(fs, "lat")) && !Nullish(Lookup(fs, "long")) && !Nullish(Lookup(fs, "accuracy_m"))
  {
    var fs := UploadFields(it, lote, loteCod);
    UploadSchemaDistinct();
    UploadFieldsSchema(it, lote, loteCod);
    LookupDistinct(fs);
    assert fs[0].name == "action" && fs[2].name == "lote" && fs[3].name == "lote_cod";
    assert fs[7].name == "submission_uuid" && fs[8].name == "lat" && fs[9].name == "long";
    assert fs[10].name == "accuracy_m" && fs[11].name == "foto_base64";
  }

  /** The upload's coordinates are the item's own, or '' where those are
      null or undefined. */
  lemma UploadFieldsCoords(it: Item, lote: Value, loteCod: Value)
    ensures var fs := UploadFields(it, lote, loteCod);
      && (Nullish(it.lat) ==> Lookup(fs, "lat") == Str(""))
      && (!Nullish(it.lat) ==> Lookup(fs, "lat") == it.lat)
      && (Nullish(it.long) ==> Lookup(fs, "long") == Str(""))
      && (!Nullish(it.long) ==> Lookup(fs, "long") == it.long)
      && (Nullish(it.accuracyM) ==> Lookup(fs, "accuracy_m") == Str(""))
      && (!Nullish(it.accuracyM) ==> Lookup(fs, "accuracy_m") == it.accuracyM)
  {
    var fs := UploadFields(it, lote, loteCod);
    UploadSchemaDistinct();
    UploadFieldsSchema(it, lote, loteCod);
    LookupDistinct(fs);
    assert fs[8].name == "lat" && fs[9].name == "long" && fs[10].name == "accuracy_m";
  }

  /** The data object of the write phase (queue.js:178-199), built from the
      upload reply `up` and the timestamp `dataHora`. */
  function WriteFields(it: Item, lote: Value, loteCod: Value, up: Reply, dataHora: string): seq<Field>
  {
    [ Field("action", Str("gravar_linha_lt08")),
      Field("data_hora", Str(dataHora)),
      Field("app_version", it.appVersion),
      Field("usuario", it.usuario),
      Field("cod_atividade", it.codAtividade),
      Field("atividade", it.atividade),
      Field("foto", Or(Prop(up, "foto_url"), Str(""))),
      Field("foto_id", Or(Prop(up, "foto_id"), Str(""))),
      Field("lat", Safe(it.lat, Str(""))),
      Field("long", Safe(it.long, Str(""))),
      Field("obs", Or(it.obs, Str(""))),
      Field("chuva", Str(NormChuva(it.chuva))),
      Field("fake_gps", Or(it.fakeGps, Or(it.gpsFlag, Str("")))),
      Field("gps_flag", Or(it.gpsFlag, Or(it.fakeGps, Str("")))),
      Field("lote", lote),
      Field("lote_cod", loteCod),
      Field("submission_uuid", it.submissionUuid)]
  }

  /** The write carries exactly the fields the server expects, in order. */
  lemma WriteFieldsSchema(it: Item, lote: Value, loteCod: Value, up: Reply, dataHora: string)
    ensures Names(WriteFields(it, lote, loteCod, up, dataHora)) == WriteSchema
  {
  }

  /** Each field of the write is found by its name. */
  lemma WriteFieldsLookup(it: Item, lote: Value, loteCod: Value, up: Reply, dataHora: string)
    ensures var fs := WriteFields(it, lote, loteCod, up, dataHora);
      forall i :: 0 <= i < |fs| ==> Lookup(fs, fs[i].name) == fs[i].value
  {
    WriteSchemaDistinct();
    WriteFieldsSchema(it, lote, loteCod, up, dataHora);
    LookupDistinct(WriteFields(it, lote, loteCod, up, dataHora));
  }

  /** The write carries the action, the record's uuid and lot, and the time stamp. */
  lemma WriteFieldsIdentity(it: Item, lote: Value, loteCod: Value, up: Reply, dataHora: string)
    ensures var fs := WriteFields(it, lote, loteCod, up, dataHora);
      && Lookup(fs, "action") == Str("gravar_linha_lt08")
      && Lookup(fs, "submission_uuid") == it.submissionUuid
      && Lookup(fs, "lote") == lote && Lookup(fs, "lote_cod") == loteCod
      && Lookup(fs, "data_hora") == Str(dataHora)
  {
    var fs := WriteFields(it, lote, loteCod, up, dataHora);
    WriteFieldsLookup(it, lote, loteCod, up, dataHora);
    assert fs[0].name == "action" && fs[1].name == "data_hora" && fs[16].name == "submission_uuid";
    assert fs[14].name == "lote" && fs[15].name == "lote_cod";
  }

  /** The photo link and id come from the upload reply, or are empty. */
  lemma WriteFieldsPhoto(it: Item, lote: Value, loteCod: Value, up: Reply, dataHora: string)
    ensures var fs := WriteFields(it, lote, loteCod, up, dataHora);
      && (Truthy(Prop(up, "foto_url")) ==> Lookup(fs, "foto") == Prop(up, "foto_url"))
      && (!Truthy(Prop(up, "foto_url")) ==> Lookup(fs, "foto") == Str(""))
      && (Truthy(Prop(up, "foto_id")) ==> Lookup(fs, "foto_id") == Prop(up, "foto_id"))
      && (!Truthy(Prop(up, "foto_id")) ==> Lookup(fs, "foto_id") == Str(""))
  {
    var fs := WriteFields(it, lote, loteCod, up, dataHora);
    WriteFieldsLookup(it, lote, loteCod, up, dataHora);
    assert fs[6].name == "foto" && fs[7].name == "foto_id";
  }

  /** The write's coordinates are the item's own, or '' where those are null
      or undefined. */
  lemma WriteFieldsCoords(it: Item, lote: Value, loteCod: Value, up: Reply, dataHora: string)
    ensures var fs := WriteFields(it, lote, loteCod, up, dataHora);
      && (Nullish(it.lat) ==> Lookup(fs, "lat") == Str(""))
      && (!Nullish(it.lat) ==> Lookup(fs, "lat") == it.lat)
      && (Nullish(it.long) ==> Lookup(fs, "long") == Str(""))
      && (!Nullish(it.long) ==> Lookup(fs, "long") == it.long)
  {
    var fs := WriteFields(it, lote, loteCod, up, dataHora);
    WriteFieldsLookup(it, lote, loteCod, up, dataHora);
    assert fs[8].name == "lat" && fs[9].name == "long";
  }

  /** The rain flag is normalised, and both GPS flags are set when either is:
      each falls back on the other, then on the empty string. */
  lemma WriteFieldsFlags(it: Item, lote: Value, loteCod: Value, up: Reply, dataHora: string)
    ensures var fs := WriteFields(it, lote, loteCod, up, dataHora);
      && Lookup(fs, "chuva") == Str(NormChuva(it.chuva))
      && (Truthy(Lookup(fs, "fake_gps")) <==> Truthy(it.fakeGps) || Truthy(it.gpsFlag))
      && (Truthy(Lookup(fs, "gps_flag")) <==> Truthy(it.fakeGps) || Truthy(it.gpsFlag))
      && Lookup(fs, "fake_gps") in {it.fakeGps, it.gpsFlag, Str("")}
      && Lookup(fs, "gps_flag") in {it.fakeGps, it.gpsFlag, Str("")}
      && (Truthy(it.fakeGps) != Truthy(it.gpsFlag) ==> Lookup(fs, "fake_gps") == Lookup(fs, "gps_flag"))
  {
    var fs := WriteFields(it, lote, loteCod, up, dataHora);
    WriteFieldsLookup(it, lote, loteCod, up, dataHora);
    assert fs[11].name == "chuva" && fs[12].name == "fake_gps" && fs[13].name == "gps_flag";
  }

  /** The rejection message for a reply that is not 'OK',
      `(up && up.mensagem) || fallback`: the server's `mensagem` when it is
      truthy, the fixed text otherwise. A message is never empty when the
      fixed text is not. */
  function FailureMessage(r: Reply, fallback: string): (m: string)
    ensures Truthy(Prop(r, "mensagem")) ==> m == ToString(Prop(r, "mensagem"))
    ensures !Truthy(Prop(r, "mensagem")) ==> m == fallback
    ensures |fallback| > 0 ==> |m| > 0
  {
    if ReplyTruthy(r) && Truthy(Prop(r, "mensagem")) then ToString(Prop(r, "mensagem")) else fallback
  }

  /** What one `sendItem` did: its settled result and the POSTs it made, in order. */
  datatype SendOutcome = SendOutcome(result: Result<(), string>, calls: seq<Request>)

  function ActionOf(r: Request): Value {
    Lookup(r.fields, "action")
  }

  function UuidOf(r: Request): Value {
    Lookup(r.fields, "submission_uuid")
  }

  /** The upload request of `sendItem` (queue.js:159-172). */
  function UploadRequest(it: Item, h: Host): Request {
    Request(ResolveBaseUrl(it, h), UploadFields(it, LoteNome(it, h), LoteCod(it, h)))
  }

  /** The write request of `sendItem` (queue.js:178-201), after the upload
      replied `up`, stamped with the clock reading `dataHora`. */
  function WriteRequest(it: Item, h: Host, up: Reply, dataHora: string): Request {
    Request(ResolveBaseUrl(it, h), WriteFields(it, LoteNome(it, h), LoteCod(it, h), up, dataHora))
  }

  lemma UploadRequestRead(it: Item, h: Host)
    ensures ActionOf(UploadRequest(it, h)) == Str("upload_foto")
    ensures UuidOf(UploadRequest(it, h)) == it.submissionUuid
  {
    UploadFieldsRead(it, LoteNome(it, h), LoteCod(it, h));
  }

  lemma WriteRequestRead(it: Item, h: Host, up: Reply, dataHora: string)
    ensures ActionOf(WriteRequest(it, h, up, dataHora)) == Str("gravar_linha_lt08")
    ensures UuidOf(WriteRequest(it, h, up, dataHora)) == it.submissionUuid
  {
    WriteFieldsIdentity(it, LoteNome(it, h), LoteCod(it, h), up, dataHora);
  }

  /** `sendItem(item)` (queue.js:150-206): upload the photo, then, once the
      upload is confirmed, write the row. POST number `t` is the upload. */
  function SendItem(it: Item, h: Host, w: Wire, t: nat): (o: SendOutcome)
    ensures 1 <= |o.calls| <= 2
    // the write is made only after a confirmed upload
    ensures |o.calls| == 2 <==> Confirms(w.net(t))
    // success needs both confirmations
    ensures o.result.Ok? <==> Confirms(w.net(t)) && Confirms(w.net(t + 1))
  {
    var upload := UploadRequest(it, h);
    match Classify(w.net(t))
    case Err(m) => SendOutcome(Err(m), [upload])
    case Ok(up) =>
      if !Accepted(up) then SendOutcome(Err(FailureMessage(up, "Falha no upload")), [upload])
      else
        var write := WriteRequest(it, h, up, w.clock(t + 1));
        match Classify(w.net(t + 1))
        case Err(m) => SendOutcome(Err(m), [upload, write])
        case Ok(grava) =>
          if !Accepted(grava) then SendOutcome(Err(FailureMessage(grava, "Falha ao gravar linha")), [upload, write])
          else SendOutcome(Ok(()), [upload, write])
  }

  /** The first request of `sendItem` is the upload, the second the write;
      both go to the resolved endpoint and carry the record's uuid. */
  lemma SendItemRequests(it: Item, h: Host, w: Wire, t: nat)
    ensures var o := SendItem(it, h, w, t);
      && ActionOf(o.calls[0]) == Str("upload_foto")
      && (|o.calls| == 2 ==> ActionOf(o.calls[1]) == Str("gravar_linha_lt08"))
      && (forall i :: 0 <= i < |o.calls| ==>
            UuidOf(o.calls[i]) == it.submissionUuid && o.calls[i].url == ResolveBaseUrl(it, h))
  {
    UploadRequestRead(it, h);
    if Classify(w.net(t)).Ok? {
      WriteRequestRead(it, h, Classify(w.net(t)).value, w.clock(t + 1));
    }
  }

  /** The message `sendItem` rejects with: the transport error, else the
      server's `mensagem` when the reply carries a truthy one, else the fixed
      text of the phase that failed. */
  lemma SendItemErrors(it: Item, h: Host, w: Wire, t: nat)
    ensures var o := SendItem(it, h, w, t); var up := Classify(w.net(t));
      && (up.Err? ==> o.result == Err(up.error))
      && (up.Ok? && !Accepted(up.value) && Truthy(Prop(up.value, "mensagem")) ==>
            o.result == Err(ToString(Prop(up.value, "mensagem"))))
      && (up.Ok? && !Accepted(up.value) && !Truthy(Prop(up.value, "mensagem")) ==>
            o.result == Err("Falha no upload"))
    ensures var o := SendItem(it, h, w, t); var grava := Classify(w.net(t + 1));
      && (Confirms(w.net(t)) && grava.Err? ==> o.result == Err(grava.error))
      && (Confirms(w.net(t)) && grava.Ok? && !Accepted(grava.value) && Truthy(Prop(grava.value, "mensagem")) ==>
            o.result == Err(ToString(Prop(grava.value, "mensagem"))))
      && (Confirms(w.net(t)) && grava.Ok? && !Accepted(grava.value) && !Truthy(Prop(grava.value, "mensagem")) ==>
            o.result == Err("Falha ao gravar linha"))
  {
  }

  /** A rejected `sendItem` always carries a non-empty message. */
  lemma SendItemErrorText(it: Item, h: Host, w: Wire, t: nat)
    requires SendItem(it, h, w, t).result.Err?
    ensures |SendItem(it, h, w, t).result.error| > 0
  {
  }
}

=== FILE: transport.dfy ===
/** One form POST and the classification of its outcome (`postFormXHR`,
    queue.js:91-122). The XMLHttpRequest machinery and `JSON.parse` are
    abstracted: a response is either a network failure or a status code with
    a body that did or did not parse. */
module Transport {
  import opened Results
  import opened Js
  import opened Form

  /** A parsed JSON body: a primitive, or an object (or array) with its own
      properties; property values are primitives. */
  datatype Reply = Scalar(v: Value) | Object(props: map<string, Value>)

  datatype Response =
    | NetworkFailure                          // `xhr.onerror`
    | Http(status: int, body: Option<Reply>)  // body `None`: responseText is not JSON

  /** A POST of the form-encoded `fields` to `url`. */
  datatype Request = Request(url: Value, fields: seq<Field>)

  /** The bytes on the wire. */
  function Body(r: Request): string {
    EncodeForm(r.fields)
  }

  /** Decoding the body gives back the request's fields in order, each value
      as its text, with '' for null and undefined. */
  lemma BodyDecodes(r: Request)
    ensures DecodeForm(Body(r)) == Some(Sent(r.fields))
  {
    DecodeEncodeForm(r.fields);
  }

  /** The settled promise of `postFormXHR`: the parsed body for a 2xx status
      with a JSON body, otherwise the rejection message. */
  function Classify(r: Response): (res: Result<Reply, string>)
    ensures res.Ok? <==> r.Http? && 200 <= r.status < 300 && r.body.Some?
    ensures res.Ok? ==> res.value == r.body.value
    ensures r.NetworkFailure? ==> res == Err("HTTP 0")
    ensures r.Http? && !(200 <= r.status < 300) ==> res == Err("HTTP " + NumberText(r.status))
    ensures r.Http? && 200 <= r.status < 300 && r.body.None? ==> res == Err("Resposta inválida")
  {
    match r
    case NetworkFailure => Err("HTTP 0")
    case Http(status, body) =>
      if 200 <= status < 300 then
        match body
        case Some(json) => Ok(json)
        case None => Err("Resposta inválida")
      else Err("HTTP " + NumberText(status))
  }

  /** `json.name`; a primitive has none of the properties read here. */
  function Prop(r: Reply, name: string): Value {
    match r
    case Scalar(_) => Undefined
    case Object(props) => if name in props then props[name] else Undefined
  }

  predicate ReplyTruthy(r: Reply) {
    r.Scalar? ==> Truthy(r.v)
  }

  /** `json && json.status === 'OK'` */
  predicate Accepted(r: Reply) {
    ReplyTruthy(r) && Prop(r, "status") == Str("OK")
  }

  /** Whether the server confirmed a request: a 2xx JSON reply whose `status` is 'OK'. */
  predicate Confirms(r: Response) {
    Classify(r).Ok? && Accepted(Classify(r).value)
  }
}

=== FILE: uri.dfy ===
/** `encodeURIComponent` and `decodeURIComponent` (sections 15.1.3.4 and 15.1.3.2
    of ECMAScript 5.1) over strings of Unicode scalar values: characters outside
    the unreserved set are written as the percent-escaped octets of their UTF-8
    encoding, with upper-case hexadecimal digits. */
module Uri {
  import opened Results

  type Byte = x: int | 0 <= x < 256

  /** uriUnreserved: letters, decimal digits and the marks - _ . ! ~ * ' ( ) */
  predicate Unreserved(c: char) {
    || 'a' <= c <= 'z' || 'A' <= c <= 'Z' || '0' <= c <= '9'
    || c == '-' || c == '_' || c == '.' || c == '!' || c == '~'
    || c == '*' || c == '\'' || c == '(' || c == ')'
  }

  /** Upper-case hexadecimal digit of a value below 16. */
  function HexDigit(d: int): (c: char)
    requires 0 <= d < 16
    ensures '0' <= c <= '9' || 'A' <= c <= 'F'
  {
    if d < 10 then ('0' as int + d) as char else ('A' as int + d - 10) as char
  }

  predicate IsHexDigit(c: char) {
    '0' <= c <= '9' || 'A' <= c <= 'F' || 'a' <= c <= 'f'
  }

  /** Value of a hexadecimal digit of either case. */
  function HexValue(c: char): (d: int)
    requires IsHexDigit(c)
    ensures 0 <= d < 16
  {
    if '0' <= c <= '9' then c as int - '0' as int
    else if 'A' <= c <= 'F' then c as int - 'A' as int + 10
    else c as int - 'a' as int + 10
  }

  lemma HexDigitValue(d: int)
    requires 0 <= d < 16
    ensures IsHexDigit(HexDigit(d)) && HexValue(HexDigit(d)) == d
  {
  }

  /** The UTF-8 encoding of one Unicode scalar value (section 3 of RFC 3629). */
  function Utf8(c: char): (r: seq<Byte>)
    ensures 1 <= |r| <= 4
    ensures c as int < 0x80 <==> |r| == 1
  {
    var cp := c as int;
    if cp < 0x80 then [cp]
    else if cp < 0x800 then [0xC0 + cp / 64, 0x80 + cp % 64]
    else if cp < 0x10000 then [0xE0 + cp / 4096, 0x80 + (cp / 64) % 64, 0x80 + cp % 64]
    else [0xF0 + cp / 262144, 0x80 + (cp / 4096) % 64, 0x80 + (cp / 64) % 64, 0x80 + cp % 64]
  }

  /** One octet as `%XY`. */
  function Escape(b: Byte): (r: string)
    ensures |r| == 3 && r[0] == '%'
    ensures forall i :: 0 <= i < |r| ==> EncodedChar(r[i])
  {
    ['%', HexDigit(b / 16), HexDigit(b % 16)]
  }

  function EscapeAll(bs: seq<Byte>): (r: string)
    ensures |r| == 3 * |bs|
    ensures forall i :: 0 <= i < |r| ==> EncodedChar(r[i])
  {
    if |bs| == 0 then "" else Escape(bs[0]) + EscapeAll(bs[1..])
  }

  /** A character of `encodeURIComponent`'s output alphabet. */
  predicate EncodedChar(c: char) {
    Unreserved(c) || c == '%' || '0' <= c <= '9' || 'A' <= c <= 'F'
  }

  function EncodeChar(c: char): (r: string)
    ensures |r| > 0
    ensures forall i :: 0 <= i < |r| ==> EncodedChar(r[i])
    ensures Unreserved(c) <==> r == [c]
  {
    if Unreserved(c) then [c] else EscapeAll(Utf8(c))
  }

  /** `encodeURIComponent(s)`. Its output never contains the form delimiters `&` and `=`. */
  function EncodeURIComponent(s: string): (r: string)
    ensures forall i :: 0 <= i < |r| ==> EncodedChar(r[i])
    ensures forall i :: 0 <= i < |r| ==> r[i] != '&' && r[i] != '='
    ensures |s| <= |r|
  {
    if |s| == 0 then "" else EncodeChar(s[0]) + EncodeURIComponent(s[1..])
  }

  predicate Continuation(b: int) {
    0x80 <= b < 0xC0
  }

  /** The octet written as `%XY` at the start of `s`, if there is one. */
  function ReadOctet(s: string): Option<Byte>
  {
    if |s| >= 3 && s[0] == '%' && IsHexDigit(s[1]) && IsHexDigit(s[2])
    then Some(16 * HexValue(s[1]) + HexValue(s[2]))
    else None
  }

  /** Number of octets of a UTF-8 sequence announced by its lead octet; 0 for an
      octet that cannot start one. */
  function LeadLength(b0: Byte): (n: nat)
    ensures n <= 4
  {
    if b0 < 0x80 then 1
    else if 0xC0 <= b0 < 0xE0 then 2
    else if 0xE0 <= b0 < 0xF0 then 3
    else if 0xF0 <= b0 < 0xF8 then 4
    else 0
  }

  /** The payload bits of a lead octet. */
  function LeadBits(b0: Byte, n: nat): int {
    if n == 1 then b0 else if n == 2 then b0 - 0xC0 else if n == 3 then b0 - 0xE0 else b0 - 0xF0
  }

  /** `k` escaped continuation octets at the start of `s`. */
  function ReadContinuations(s: string, k: nat): Option<seq<Byte>>
    decreases k
  {
    if k == 0 then Some([])
    else
      match ReadOctet(s)
      case None => None
      case Some(b) =>
        if !Continuation(b) || |s| < 3 then None
        else
          match ReadContinuations(s[3..], k - 1)
          case None => None
          case Some(bs) => Some([b] + bs)
  }

  /** Appends the six payload bits of each continuation octet. */
  function Accumulate(acc: int, conts: seq<Byte>): int
    decreases |conts|
  {
    if |conts| == 0 then acc else Accumulate(acc * 64 + (conts[0] as int - 0x80), conts[1..])
  }

  /** Whether a code point decoded from an `n`-octet sequence is a scalar value
      in its shortest form. */
  predicate WellFormedScalar(cp: int, n: nat) {
    if n == 1 then 0 <= cp < 0x80
    else if n == 2 then 0x80 <= cp < 0x800
    else if n == 3 then 0x800 <= cp < 0x10000 && !(0xD800 <= cp < 0xE000)
    else 0x10000 <= cp <= 0x10FFFF
  }

  /** The character denoted by the escape sequence at the start of `s` and the
      number of characters it spans; `None` is the decoder's URIError: a
      malformed escape, a bad lead or continuation octet, an overlong form, a
      surrogate or a value above U+10FFFF. */
  function ReadEscaped(s: string): Option<(char, nat)>
  {
    match ReadOctet(s)
    case None => None
    case Some(b0) =>
      var n := LeadLength(b0);
      if n == 0 then None
      else
        match ReadContinuations(s[3..], n - 1)
        case None => None
        case Some(conts) =>
          var cp := Accumulate(LeadBits(b0, n), conts);
          if WellFormedScalar(cp, n) then Some((cp as char, 3 * n)) else None
  }

  /** `decodeURIComponent(s)`; `None` stands for the URIError it throws. */
  function DecodeURIComponent(s: string): Option<string>
    decreases |s|
  {
    if |s| == 0 then Some("")
    else if s[0] != '%' then
      match DecodeURIComponent(s[1..])
      case Some(t) => Some([s[0]] + t)
      case None => None
    else
      match ReadEscaped(s)
      case None => None
      case Some((c, n)) =>
        if n == 0 || n > |s| then None
        else
          match DecodeURIComponent(s[n..])
          case Some(t) => Some([c] + t)
          case None => None
  }

  lemma ReadOctetEscape(b: Byte, t: string)
    ensures ReadOctet(Escape(b) + t) == Some(b)
  {
    var s := Escape(b) + t;
    HexDigitValue(b / 16);
    HexDigitValue(b % 16);
    assert s[1] == HexDigit(b / 16) && s[2] == HexDigit(b % 16);
  }

  /** The escapes of an octet sequence read back, octet by octet. */
  lemma EscapeAllRead(bs: seq<Byte>, t: string, k: nat)
    requires k < |bs|
    ensures (EscapeAll(bs) + t)[3 * k..] == Escape(bs[k]) + (EscapeAll(bs[k + 1..]) + t)
    ensures ReadOctet((EscapeAll(bs) + t)[3 * k..]) == Some(bs[k])
    decreases k
  {
    if k == 0 {
      assert EscapeAll(bs) + t == Escape(bs[0]) + (EscapeAll(bs[1..]) + t);
    } else {
      EscapeAllRead(bs[1..], t, k - 1);
      assert bs[1..][k - 1] == bs[k] && bs[1..][k..] == bs[k + 1..];
      assert EscapeAll(bs) + t == Escape(bs[0]) + (EscapeAll(bs[1..]) + t);
    }
    ReadOctetEscape(bs[k], EscapeAll(bs[k + 1..]) + t);
  }

  lemma {:induction false} ReadContinuationsEscaped(bs: seq<Byte>, t: string)
    requires forall i :: 0 <= i < |bs| ==> Continuation(bs[i])
    ensures ReadContinuations(EscapeAll(bs) + t, |bs|) == Some(bs)
  {
    if |bs| > 0 {
      var s := EscapeAll(bs) + t;
      assert s == Escape(bs[0]) + (EscapeAll(bs[1..]) + t);
      ReadOctetEscape(bs[0], EscapeAll(bs[1..]) + t);
      assert s[3..] == EscapeAll(bs[1..]) + t;
      ReadContinuationsEscaped(bs[1..], t);
      assert [bs[0]] + bs[1..] == bs;
    }
  }

  /** The lead octet `Utf8` writes announces the sequence's length, and the
      octets after it are continuation octets. */
  lemma Utf8Shape(c: char)
    ensures LeadLength(Utf8(c)[0]) == |Utf8(c)|
    ensures forall i :: 1 <= i < |Utf8(c)| ==> Continuation(Utf8(c)[i])
  {
  }

  lemma AccumulateTwo(cp: nat)
    ensures Accumulate(cp / 64, [0x80 + cp % 64]) == cp
  {
    assert [0x80 + cp % 64][1..] == [];
  }

  lemma AccumulateThree(cp: nat)
    ensures Accumulate(cp / 4096, [0x80 + (cp / 64) % 64, 0x80 + cp % 64]) == cp
  {
    var conts := [0x80 + (cp / 64) % 64, 0x80 + cp % 64];
    assert (cp / 4096) * 64 + (cp / 64) % 64 == cp / 64;
    assert conts[1..] == [0x80 + cp % 64];
    AccumulateTwo(cp);
  }

  lemma AccumulateFour(cp: nat)
    ensures Accumulate(cp / 262144, [0x80 + (cp / 4096) % 64, 0x80 + (cp / 64) % 64, 0x80 + cp % 64]) == cp
  {
    var conts := [0x80 + (cp / 4096) % 64, 0x80 + (cp / 64) % 64, 0x80 + cp % 64];
    assert (cp / 262144) * 64 + (cp / 4096) % 64 == cp / 4096;
    assert conts[1..] == [0x80 + (cp / 64) % 64, 0x80 + cp % 64];
    AccumulateThree(cp);
  }

  /** The octets `Utf8` produces accumulate back to the character's code point. */
  lemma Utf8Value(c: char)
    ensures Accumulate(LeadBits(Utf8(c)[0], |Utf8(c)|), Utf8(c)[1..]) == c as int
  {
    var cp := c as int;
    var bs := Utf8(c);
    if cp < 0x80 {
    } else if cp < 0x800 {
      assert bs[1..] == [0x80 + cp % 64];
      AccumulateTwo(cp);
    } else if cp < 0x10000 {
      assert bs[1..] == [0x80 + (cp / 64) % 64, 0x80 + cp % 64];
      AccumulateThree(cp);
    } else {
      assert bs[1..] == [0x80 + (cp / 4096) % 64, 0x80 + (cp / 64) % 64, 0x80 + cp % 64];
      AccumulateFour(cp);
    }
  }

  /** A character's UTF-8 form is in shortest form for its length. */
  lemma Utf8WellFormed(c: char)
    ensures WellFormedScalar(c as int, |Utf8(c)|)
  {
  }

  /** Decoding the escaped UTF-8 form of a character gives that character back. */
  lemma ReadEscapedUtf8(c: char, t: string)
    ensures ReadEscaped(EscapeAll(Utf8(c)) + t) == Some((c, 3 * |Utf8(c)|))
  {
    var bs := Utf8(c);
    var s := EscapeAll(bs) + t;
    assert s == Escape(bs[0]) + (EscapeAll(bs[1..]) + t);
    ReadOctetEscape(bs[0], EscapeAll(bs[1..]) + t);
    assert s[3..] == EscapeAll(bs[1..]) + t;
    Utf8Shape(c);
    Utf8Value(c);
    Utf8WellFormed(c);
    ReadContinuationsEscaped(bs[1..], t);
  }

  /** Decoding an escaped character followed by text that decodes to `t`. */
  lemma DecodeEscapedHead(c: char, rest: string, t: string)
    requires !Unreserved(c)
    requires DecodeURIComponent(rest) == Some(t)
    ensures DecodeURIComponent(EscapeAll(Utf8(c)) + rest) == Some([c] + t)
  {
    var e := EscapeAll(Utf8(c)) + rest;
    var n := 3 * |Utf8(c)|;
    ReadEscapedUtf8(c, rest);
    assert e[0] == '%';
    assert e[n..] == rest;
  }

  /** `decodeURIComponent(encodeURIComponent(s)) == s` for every string. */
  lemma {:induction false} DecodeEncode(s: string)
    ensures DecodeURIComponent(EncodeURIComponent(s)) == Some(s)
  {
    if |s| > 0 {
      var rest := EncodeURIComponent(s[1..]);
      DecodeEncode(s[1..]);
      assert EncodeURIComponent(s) == EncodeChar(s[0]) + rest;
      if Unreserved(s[0]) {
        var e := [s[0]] + rest;
        assert e[1..] == rest;
      } else {
        DecodeEscapedHead(s[0], rest, s[1..]);
      }
      assert [s[0]] + s[1..] == s;
    }
  }
}

=== FILE: uuid.dfy ===
/** The `submission_uuid` generator of `queueOrSendNow` (queue.js:247):
    `'xxxxxxxx-xxxx-4xxx-yxxx-xxxxxxxxxxxx'.replace(/[xy]/g, …)`, where every
    `x` becomes a random hex digit `r` and the single `y` becomes
    `(r & 0x3) | 0x8`, both written by `toString(16)` in lower case.

    `Math.random()` is an oracle: `d[k]` is `Math.random()*16|0` at the k-th
    placeholder, left to right. */
module Uuid {
  /** A value of `Math.random()*16|0`. */
  type Nibble = x: int | 0 <= x < 16

  const Template: string := "xxxxxxxx-xxxx-4xxx-yxxx-xxxxxxxxxxxx"

  predicate IsLowerHex(c: char) {
    '0' <= c <= '9' || 'a' <= c <= 'f'
  }

  /** `v.toString(16)` of a nibble. */
  function LowerHex(v: Nibble): (c: char)
    ensures IsLowerHex(c)
  {
    if v < 10 then ('0' as int + v) as char else ('a' as int + v - 10) as char
  }

  /** The nibble a lower-case hex digit denotes. */
  function LowerHexValue(c: char): (v: Nibble)
    requires IsLowerHex(c)
    ensures LowerHex(v) == c
  {
    if c <= '9' then c as int - '0' as int else c as int - 'a' as int + 10
  }

  /** The digit written at the `y`: `(r & 0x3) | 0x8`. */
  function Variant(r: Nibble): (v: Nibble)
    ensures 8 <= v < 12
    ensures v - 8 == r % 4
  {
    ((r as bv8 & 3) | 8) as int
  }

  /** The digits allowed at the `y`. */
  predicate IsVariantDigit(c: char) {
    c == '8' || c == '9' || c == 'a' || c == 'b'
  }

  /** Whether character `c` can stand at template character `tc`. */
  predicate Fits(tc: char, c: char) {
    if tc == 'x' then IsLowerHex(c)
    else if tc == 'y' then IsVariantDigit(c)
    else c == tc
  }

  predicate Matches(t: string, s: string) {
    |s| == |t| && forall i :: 0 <= i < |t| ==> Fits(t[i], s[i])
  }

  /** The number of placeholders, which is the number of `Math.random()` draws. */
  function Slots(t: string): nat {
    if |t| == 0 then 0 else (if t[0] == 'x' || t[0] == 'y' then 1 else 0) + Slots(t[1..])
  }

  /** `t.replace(/[xy]/g, …)` with draws `d`. */
  function Fill(t: string, d: seq<Nibble>): string
    requires |d| == Slots(t)
  {
    if |t| == 0 then ""
    else if t[0] == 'x' then [LowerHex(d[0])] + Fill(t[1..], d[1..])
    else if t[0] == 'y' then [LowerHex(Variant(d[0]))] + Fill(t[1..], d[1..])
    else [t[0]] + Fill(t[1..], d)
  }

  /** Draws that make `Fill(t, ·)` produce `s`. */
  function Draws(t: string, s: string): (d: seq<Nibble>)
    requires Matches(t, s)
    ensures |d| == Slots(t)
  {
    if |t| == 0 then []
    else
      assert Fits(t[0], s[0]);
      assert Matches(t[1..], s[1..]) by {
        forall i | 0 <= i < |t[1..]| ensures Fits(t[1..][i], s[1..][i]) {
          assert Fits(t[i + 1], s[i + 1]);
        }
      }
      if t[0] == 'x' then [LowerHexValue(s[0])] + Draws(t[1..], s[1..])
      else if t[0] == 'y' then [LowerHexValue(s[0]) - 8] + Draws(t[1..], s[1..])
      else Draws(t[1..], s[1..])
  }

  /** Whatever the draws, the filled template keeps its literal characters and
      puts a lower-case hex digit at each `x` and one of `8 9 a b` at the `y`. */
  lemma {:induction false} FillMatches(t: string, d: seq<Nibble>)
    requires |d| == Slots(t)
    ensures Matches(t, Fill(t, d))
  {
    if |t| > 0 {
      var rest := if t[0] == 'x' || t[0] == 'y' then d[1..] else d;
      FillMatches(t[1..], rest);
      var s := Fill(t, d);
      assert s[1..] == Fill(t[1..], rest);
      forall i | 0 <= i < |t| ensures Fits(t[i], s[i]) {
        if i > 0 {
          assert t[i] == t[1..][i - 1] && s[i] == s[1..][i - 1];
        }
      }
    }
  }

  /** Every string of that shape is produced by some draws. */
  lemma {:induction false} FillDraws(t: string, s: string)
    requires Matches(t, s)
    ensures Fill(t, Draws(t, s)) == s
  {
    if |t| > 0 {
      var d := Draws(t, s);
      assert Fits(t[0], s[0]);
      assert Matches(t[1..], s[1..]) by {
        forall i | 0 <= i < |t[1..]| ensures Fits(t[1..][i], s[1..][i]) {
          assert Fits(t[i + 1], s[i + 1]);
        }
      }
      FillDraws(t[1..], s[1..]);
      if t[0] == 'y' {
        assert LowerHex(Variant(LowerHexValue(s[0]) - 8)) == s[0];
      }
      assert [s[0]] + s[1..] == s;
    }
  }

  /** A version-4 UUID in lower case, position by position: 36 characters,
      hyphens at 8, 13, 18 and 23, the version digit `4` at 14, a variant
      digit at 19 and lower-case hex digits everywhere else. */
  predicate IsV4(s: string) {
    && |s| == 36
    && s[8] == '-' && s[13] == '-' && s[18] == '-' && s[23] == '-'
    && s[14] == '4'
    && IsVariantDigit(s[19])
    && forall i :: 0 <= i < 36 && i != 8 && i != 13 && i != 14 && i != 18 && i != 19 && i != 23 ==>
         IsLowerHex(s[i])
  }

  /** The template describes exactly the version-4 shape. */
  lemma TemplateShape(s: string)
    ensures Matches(Template, s) <==> IsV4(s)
  {
    if |s| == 36 {
      forall i | 0 <= i < 36
        ensures Template[i] == (if i == 8 || i == 13 || i == 18 || i == 23 then '-'
                                else if i == 14 then '4' else if i == 19 then 'y' else 'x')
      {
        TemplateAt(i);
      }
    }
  }

  /** `n` placeholders `x`. */
  function Xs(n: nat): (r: string)
    ensures |r| == n && Slots(r) == n
    ensures forall i :: 0 <= i < n ==> r[i] == 'x'
  {
    if n == 0 then "" else assert (['x'] + Xs(n - 1))[1..] == Xs(n - 1); ['x'] + Xs(n - 1)
  }

  lemma {:induction false} SlotsAppend(a: string, b: string)
    ensures Slots(a + b) == Slots(a) + Slots(b)
  {
    if |a| > 0 {
      assert (a + b)[0] == a[0] && (a + b)[1..] == a[1..] + b;
      SlotsAppend(a[1..], b);
    } else {
      assert a + b == b;
    }
  }

  /** The template in groups. */
  lemma TemplateGroups()
    ensures Template == Xs(8) + "-" + Xs(4) + "-4" + Xs(3) + "-y" + Xs(3) + "-" + Xs(12)
  {
    var g := Xs(8) + "-" + Xs(4) + "-4" + Xs(3) + "-y" + Xs(3) + "-" + Xs(12);
    forall i | 0 <= i < 36 ensures Template[i] == g[i] {
      TemplateAt(i);
    }
  }

  lemma TemplateAt(i: nat)
    requires i < 36
    ensures Template[i] == (if i == 8 || i == 13 || i == 18 || i == 23 then '-'
                            else if i == 14 then '4' else if i == 19 then 'y' else 'x')
  {
  }

  const PlaceholderCount: nat := 31

  /** The template has 31 placeholders: `queueOrSendNow` draws 31 random numbers. */
  lemma TemplateSlots()
    ensures Slots(Template) == PlaceholderCount
  {
    TemplateGroups();
    Piece(Xs(8), "-", 8, 0);
    Piece(Xs(8) + "-", Xs(4), 8, 4);
    Piece(Xs(8) + "-" + Xs(4), "-4", 12, 0);
    Piece(Xs(8) + "-" + Xs(4) + "-4", Xs(3), 12, 3);
    Piece(Xs(8) + "-" + Xs(4) + "-4" + Xs(3), "-y", 15, 1);
    Piece(Xs(8) + "-" + Xs(4) + "-4" + Xs(3) + "-y", Xs(3), 16, 3);
    Piece(Xs(8) + "-" + Xs(4) + "-4" + Xs(3) + "-y" + Xs(3), "-", 19, 0);
    Piece(Xs(8) + "-" + Xs(4) + "-4" + Xs(3) + "-y" + Xs(3) + "-", Xs(12), 19, 12);
  }

  /** One step of the count above, stated with the known counts of both parts
      so that each step stays a small, separate proof. */
  lemma Piece(a: string, b: string, m: nat, n: nat)
    requires Slots(a) == m && Slots(b) == n
    ensures Slots(a + b) == m + n
  {
    SlotsAppend(a, b);
  }

  /** `Template` filled with draws `d`. */
  function Generate(d: seq<Nibble>): string
    requires |d| == PlaceholderCount
  {
    TemplateSlots();
    Fill(Template, d)
  }

  /** The generator only produces version-4 UUIDs. */
  lemma GenerateShape(d: seq<Nibble>)
    requires |d| == PlaceholderCount
    ensures IsV4(Generate(d))
  {
    TemplateSlots();
    FillMatches(Template, d);
    TemplateShape(Generate(d));
  }

  /** Draws that make the generator produce the version-4 UUID `s`. */
  function DrawsFor(s: string): (d: seq<Nibble>)
    requires IsV4(s)
    ensures |d| == PlaceholderCount
  {
    TemplateShape(s);
    TemplateSlots();
    Draws(Template, s)
  }

  /** The generator can produce every version-4 UUID. */
  lemma GenerateOnto(s: string)
    requires IsV4(s)
    ensures Generate(DrawsFor(s)) == s
  {
    TemplateShape(s);
    TemplateSlots();
    FillDraws(Template, s);
  }
}
